=== FILE: README.md ===
# MusicNN core in Dafny

This project models the deterministic core of MusicNN, a top-n music genre
classifier. Around a neural network, the Python code does a few pieces of
bookkeeping, and these are modelled as pure functions over sequences and
reals:

- **Label registry.** Each training corpus directory that holds at least one
  `.npy` spectrogram gets a class index. `pre_process` and
  `save_json_genre_labels` build this index with the same loop. Indices are
  dense and follow the order in which each directory is first seen.
- **Training data.** `pre_process` pairs every loaded spectrogram with its
  directory's index. It then shuffles both arrays with one permutation.
- **Feature extraction.** `process_audio_file` rejects clips shorter than 30
  seconds. Longer clips are cut into 30-second windows: one window, or four
  around the middle for clips over 130 seconds. Each window is saved under a
  name derived from the `splitext` stem. `process_audio_database` counts the
  clips that convert.
- **Inference.** `predict_genre` samples one window, starting mid-clip for
  clips over 65 seconds. It names the network's scores through the registry.
  It then returns either a stable, descending ranking or the percentages in
  registry order.
- **Recommender.** The L1 distance between score vectors, ranking the catalog
  by it, `head(rec_num)`, and the `[v1,v2,...]` cell of the catalog file. The
  model also covers the walk that fills that file.

Modules follow the source files:

| module | models |
|---|---|
| `Paths` | `endswith`, `rfind`, `lower`, and POSIX `basename`, `join` and `splitext` |
| `Walks` | `os.walk` |
| `Filters` | keeping the list entries that pass a test |
| `Permutations` | `np.random.permutation` and fancy indexing |
| `Ranking` | stable sort by score |
| `LabelRegistry` | the registry |
| `DataPipeline` | `model_creation/data_pipeline.py` |
| `AudioWindows` and `LibrosaConversion` | `model_creation/librosa_conversion.py` |
| `GenrePrediction` | `genre_prediction.py` |
| `ContentSuggestion` | `content_suggestion.py` |

The outside world enters as parameters:

- The directory walk is a sequence of (root, file names) steps.
- `librosa.get_duration` is `duration`.
- Loading a window and computing its spectrogram is `extract`.
- `np.load` is `load`.
- The saved network is `model`.
- The label document is `labels`.
- `predict_genre` is `predict`.
- `str`/`literal_eval` of one score are `show`/`read`.
- The shuffle permutation is `perm`.
- Whether a directory exists is a boolean.

`duration`, `extract`, `load`, `model`, `labels`, `predict` and `read` are
`None` where the Python call raises. `walk`, `perm`, `show` and the
directory flag are plain inputs.

Where the code and its descriptions differ, the model follows the code:

- `build_recommender_db` does not catch exceptions from `predict_genre`. The
  first failing track ends the build, and the rows written before it stay.
- `np.save` appends `.npy` to the `..._mel_spectrogram.txt` names. So the files
  on disk end in `.txt.npy`, which is why `pre_process` picks them up.
- `pre_process` with no `.npy` file fails when it indexes the empty array
  (`NoFeatures`).

## Model

| member | source | states |
|---|---|---|
| Paths.BasenameIsLastComponent | CS467_music_NN-main/model_creation/data_pipeline.py:43 | the folder name is exactly the text after the path's last '/': r is the basename iff r is a '/'-free suffix of the path that is either the whole path or preceded by a '/' |
| Paths.SplitExt | CS467_music_NN-main/model_creation/librosa_conversion.py:82 | stem and extension concatenate back to the path; a non-empty extension starts at a '.', holds no '/' and no further '.', and leaves a non-empty stem not ending in '/' |
| Paths.SplitExtFindsExtension | CS467_music_NN-main/model_creation/librosa_conversion.py:82 | an extension is split off exactly when the last component has a '.' preceded by some non-'.' character of that component, so a leading-dot name such as ".bashrc" has none |
| Walks.Files | CS467_music_NN-main/model_creation/data_pipeline.py:42-46 | the nested loops reach exactly the files the walk lists, in any step |
| LabelRegistry.FeatureOnly | CS467_music_NN-main/model_creation/data_pipeline.py:45-46 | a file is kept exactly when it is among the inputs and its name ends in ".npy" (case-sensitive) |
| LabelRegistry.Observe | CS467_music_NN-main/model_creation/data_pipeline.py:50-52 | afterwards the genre is registered; a known genre changes nothing; a new one is appended with the next unused index |
| LabelRegistry.ObserveKeepsIndices | CS467_music_NN-main/model_creation/data_pipeline.py:50-53 | a genre already registered keeps its index when any file is observed |
| LabelRegistry.AssignAll | CS467_music_NN-main/model_creation/data_pipeline.py:42-53 | the counter equals the number of entries, the indices are exactly 0..n-1 with distinct names, and every name seen is registered |
| LabelRegistry.AssignedNamesWereSeen | CS467_music_NN-main/model_creation/data_pipeline.py:50-52 | only names that were seen enter the registry |
| LabelRegistry.AssignFirstSeenOrder | CS467_music_NN-main/model_creation/data_pipeline.py:50-52 | entries are ordered by the first occurrence of their names |
| LabelRegistry.ValidLookup | CS467_music_NN-main/model_creation/data_pipeline.py:53 | in a valid registry the lookup of entry i's name is i, and every lookup is below the number of entries |
| LabelRegistry.RegistryOfWalk | CS467_music_NN-main/model_creation/data_pipeline.py:42-53 | the registry of a walk is a bijection onto 0..n-1 whose names are exactly the directories holding a ".npy" file; a directory without one never enters |
| DataPipeline.Collect | CS467_music_NN-main/model_creation/data_pipeline.py:42-55 | the loop completes exactly when every ".npy" file loads; otherwise it fails with the path of the first ".npy" file, in visiting order, that does not load; on success data and labels have one entry per ".npy" file, each the file's matrix and its directory's index |
| DataPipeline.CollectStep | CS467_music_NN-main/model_creation/data_pipeline.py:46-53 | one more ".npy" file appends its matrix and its directory's index and keeps the earlier pairs |
| DataPipeline.PreProcess | CS467_music_NN-main/model_creation/data_pipeline.py:32-70 | a missing directory fails with NotFound; success exactly when the root is a directory, there is a ".npy" file and all of them load; no ".npy" file fails with NoFeatures; a failing load fails with Collect's error |
| DataPipeline.PreProcessRows | CS467_music_NN-main/model_creation/data_pipeline.py:42-70 | the registry is the walk's registry; data and labels have one row per ".npy" file; every label is below the number of genres; row i holds the matrix of file perm[i] and that file's directory index |
| DataPipeline.ShuffledRows | CS467_music_NN-main/model_creation/data_pipeline.py:68-70 | fancy indexing both arrays with one permutation keeps each matrix with its label |
| DataPipeline.ShuffleKeepsExamples | CS467_music_NN-main/model_creation/data_pipeline.py:68-70 | the multiset of (matrix, label) rows is unchanged by the shuffle |
| Permutations.PermutationInRange | CS467_music_NN-main/model_creation/data_pipeline.py:68 | every entry of `np.random.permutation(n)` indexes the arrays |
| Permutations.PermuteKeepsMultiset | CS467_music_NN-main/model_creation/data_pipeline.py:69-70 | fancy indexing by a permutation keeps every element exactly as often as before |
| Permutations.ZipPermute | CS467_music_NN-main/model_creation/data_pipeline.py:69-70 | permuting two columns with one permutation permutes their rows |
| Ranking.Insert | CS467_music_NN-main/genre_prediction.py:118-119 | inserting into a sorted sequence keeps it sorted and adds exactly the one pair |
| Ranking.Sort | CS467_music_NN-main/genre_prediction.py:118-119 | the result is ordered by score and is a permutation of the input |
| Ranking.InsertTies | CS467_music_NN-main/genre_prediction.py:119 | an inserted pair lands behind every pair with the same score |
| Ranking.SortIsStable | CS467_music_NN-main/genre_prediction.py:119 | pairs of equal score keep their original relative order |
| AudioWindows.HalfFloor | CS467_music_NN-main/model_creation/librosa_conversion.py:65 | `song_length // 2` is the whole number of seconds r with r <= L/2 < r+1 |
| LibrosaConversion.SavedName | CS467_music_NN-main/model_creation/librosa_conversion.py:82-83 | the saved file always ends in ".npy": a name already ending in it is kept as is, any other gets it appended |
| LibrosaConversion.SaveCuts | CS467_music_NN-main/model_creation/librosa_conversion.py:67-110 | success exactly when every window extracts; the files written are the first windows in order, each under its name with its spectrogram; on failure the next window is the one that failed |
| LibrosaConversion.ProcessAudioFile | CS467_music_NN-main/model_creation/librosa_conversion.py:55-122 | unknown duration or a clip under 30 s gives False with nothing written; True exactly when the clip lasts at least 30 s and every window extracts; True writes one file, or four above 130 s; every file written is a ".npy" file |
| LibrosaConversion.ProcessAudioFileWrites | CS467_music_NN-main/model_creation/librosa_conversion.py:78-112 | the files written are the clip's windows in order: file i is named by the `splitext` stem, window i's suffix and ".npy", and holds window i's spectrogram; no two files of one clip share a name |
| LibrosaConversion.PrimaryWindowStart | CS467_music_NN-main/model_creation/librosa_conversion.py:63-65 | the first window starts at floor(L/2) above 130 s and at 0 otherwise, and is the main spectrogram |
| LibrosaConversion.CutsWithinClip | CS467_music_NN-main/model_creation/librosa_conversion.py:59-110 | for an accepted clip every window lies within [0, L] |
| LibrosaConversion.LongClipWindowsTile | CS467_music_NN-main/model_creation/librosa_conversion.py:85-110 | above 130 s the windows at mid-60, mid-30, mid and mid+30 are contiguous and pairwise non-overlapping |
| LibrosaConversion.SuffixesDistinct | CS467_music_NN-main/model_creation/librosa_conversion.py:82-109 | the window suffixes end in ".txt" and are pairwise different |
| LibrosaConversion.TextNameSaved | CS467_music_NN-main/model_creation/librosa_conversion.py:82-83 | a ".txt" output name is saved as stem + suffix + ".npy" |
| LibrosaConversion.OutputNamesDistinct | CS467_music_NN-main/model_creation/librosa_conversion.py:82-109 | every output name is the `splitext` stem, the suffix and ".npy", and the names of one clip are pairwise distinct |
| LibrosaConversion.AudioOnly | CS467_music_NN-main/model_creation/librosa_conversion.py:144 | a file is kept exactly when it is among the inputs and its name ends in ".wav", ".mp3" or ".au" in any letter case |
| LibrosaConversion.ConvertAll | CS467_music_NN-main/model_creation/librosa_conversion.py:143-148 | the count is the number of audio files whose conversion returns True; whatever is written has a ".npy" name (the list of files written is not characterised here) |
| LibrosaConversion.ProcessAudioDatabase | CS467_music_NN-main/model_creation/librosa_conversion.py:125-150 | the count never exceeds the number of audio files, and equals it exactly when every conversion returns True |
| GenrePrediction.SaveJsonGenreLabels | CS467_music_NN-main/genre_prediction.py:15-47 | a missing corpus directory fails with NotFound; otherwise the document is a valid registry equal to the one the training pipeline builds from the same walk |
| GenrePrediction.ObserveStepIsObserveAll | CS467_music_NN-main/genre_prediction.py:39-44 | the inner loop observes the genre names of the step's ".npy" files in listing order |
| GenrePrediction.ObserveWalkIsObserveAll | CS467_music_NN-main/genre_prediction.py:36-44 | the nested loops observe the genre names of all of the walk's ".npy" files in visiting order |
| GenrePrediction.InferenceStart | CS467_music_NN-main/genre_prediction.py:67-70 | above 65 s the window starts at the whole second r with r <= L/2 < r+1, otherwise at 0; for a clip of at least 30 s the window lies inside it |
| GenrePrediction.InferenceWindowWithinClip | CS467_music_NN-main/genre_prediction.py:67-72 | the inference window lies inside the clip exactly when the clip lasts at least 30 s; shorter clips are not rejected |
| GenrePrediction.NameScores | CS467_music_NN-main/genre_prediction.py:114-116 | success exactly when every index addresses a score; the failing key is the first out-of-range entry |
| GenrePrediction.ShapeResults | CS467_music_NN-main/genre_prediction.py:118-124 | `return_list` gives score times 100 per entry in document order; otherwise a descending permutation of the named scores |
| GenrePrediction.PredictGenre | CS467_music_NN-main/genre_prediction.py:87-124 | each failure once the earlier steps succeed: audio (AudioFailed), model load (ModelNotFound), model run (ModelFailed), label document (LabelsNotFound), then the first key whose index has no score; success exactly when all succeed; percentages per entry, or a descending permutation of the named scores |
| GenrePrediction.PercentagesFollowClassIndex | CS467_music_NN-main/genre_prediction.py:121-122 | with the dense document, position i of the percentage list is the network's score i times 100 |
| GenrePrediction.RankedTiesKeepDocumentOrder | CS467_music_NN-main/genre_prediction.py:118-119 | genres of equal score keep their document order in the ranking |
| ContentSuggestion.L1 | CS467_music_NN-main/content_suggestion.py:76-77 | the distance is never negative |
| ContentSuggestion.L1Symmetric | CS467_music_NN-main/content_suggestion.py:76-77 | the distance is symmetric |
| ContentSuggestion.L1ZeroIffEqual | CS467_music_NN-main/content_suggestion.py:76-77 | two vectors of equal length are at distance 0 exactly when they are equal |
| ContentSuggestion.AbsoluteDifference | CS467_music_NN-main/content_suggestion.py:60-77 | defined exactly when numpy can broadcast the vectors; then non-negative, the L1 distance for equal lengths, with a length-1 vector repeated otherwise |
| ContentSuggestion.Distances | CS467_music_NN-main/content_suggestion.py:107-109 | one distance per catalog row, in order, each the row's distance to the query; otherwise the error names a row numpy cannot compare |
| ContentSuggestion.Head | CS467_music_NN-main/content_suggestion.py:113 | the result is a prefix of the rows: the first n of them (all when fewer), or for negative n all but the last -n (none when fewer) |
| ContentSuggestion.Recommend | CS467_music_NN-main/content_suggestion.py:100-113 | success exactly when every row is comparable; rows in non-decreasing distance, min(rec_num, rows) of them (all but the last -rec_num for negative rec_num), each a catalog row with its distance |
| ContentSuggestion.RecommendTopN | CS467_music_NN-main/content_suggestion.py:111-113 | no row left out is closer than a row returned |
| ContentSuggestion.ExactMatchRankedFirst | CS467_music_NN-main/content_suggestion.py:107-113 | a catalog row equal to the query puts distance 0 at the head of the result |
| ContentSuggestion.SplitJoin | CS467_music_NN-main/content_suggestion.py:57 | splitting the comma-joined tokens gives the tokens back |
| ContentSuggestion.FormatParse | CS467_music_NN-main/content_suggestion.py:57 | a bracketed, comma-joined row parses back to its tokens |
| ContentSuggestion.CellRoundTrip | CS467_music_NN-main/content_suggestion.py:101 | the written cell reads back as the same prediction vector |
| ContentSuggestion.CatalogRows | CS467_music_NN-main/content_suggestion.py:45-57 | the header comes first; complete exactly when every catalog track can be predicted; otherwise aborted at such a track's path |
| ContentSuggestion.FirstFailureAborts | CS467_music_NN-main/content_suggestion.py:50-57 | at the first catalog track that cannot be predicted the build aborts with that track's path, keeping exactly the complete catalog of the files before it |
| ContentSuggestion.AbortedStays | CS467_music_NN-main/content_suggestion.py:50-57 | once the build has aborted, later files of the walk change nothing |
| ContentSuggestion.CatalogRowsComplete | CS467_music_NN-main/content_suggestion.py:50-57 | a complete file holds the header and then one [title, cell] row per ".mp3"/".wav" track in walk order |
| ContentSuggestion.CatalogCompleteIff | CS467_music_NN-main/content_suggestion.py:50-57 | the build completes exactly when every catalog track the walk reaches can be predicted |
| ContentSuggestion.BuildRecommenderDbAsWritten | CS467_music_NN-main/content_suggestion.py:16-57 | a missing directory writes nothing; otherwise the header first; complete exactly when every track can be predicted under `audio_dir` joined with its name |
| ContentSuggestion.BuildRecommenderDb | CS467_music_NN-main/content_suggestion.py:16-57 | a missing directory writes nothing; otherwise the header first; complete exactly when every track can be predicted from its own directory |
| ContentSuggestion.CompleteCatalogRows | CS467_music_NN-main/content_suggestion.py:50-57 | a complete catalog has one row per catalog track, holding its name and its prediction's cell |
| ContentSuggestion.SubdirectoryTrackMisjoined | CS467_music_NN-main/content_suggestion.py:53 | as written, a track in a sub-directory is looked up at the wrong path and the build aborts |
| ContentSuggestion.SubdirectoryTrackFound | CS467_music_NN-main/content_suggestion.py:53 | the corrected build finds the same track and completes |

## Left out

- Training and orchestration are not modelled. This covers `model_build_training.py`, `model_from_dataset.py`, `app.py`, `gui_prediction.py`, `music_file_conversion.py` and the `__main__` blocks: Keras, Flask, Tk, pydub and yt-dlp do the work there.
- The librosa calls and the TensorFlow model are parameters. Their numerics are floating point and live outside the repository.
- `np.save` is assumed to succeed. A failing save would also make `process_audio_file` return False.
- `np.load` is a parameter. Only its failure is modelled.
- JSON and CSV file I/O are not modelled: no file locations, no CSV quoting, no pandas parsing beyond the score cell.
- `pre_process` writes `../genre_labels.json`, while `save_json_genre_labels` and `predict_genre` use `genre_labels.json`. The model only compares the documents' contents.
- The label document is a parameter with distinct keys, because a JSON object has distinct keys. Its values are natural numbers, so negative or non-integer values are not modelled.
- The text form of a float is the `show`/`read` parameter pair.
- Randomness is not modelled. The permutation is an input satisfying the permutation property.
- `os.walk` order is not modelled. The walk is an input sequence, and a walk of a missing directory is an empty sequence.
- Floating point is modelled as `real`: no rounding, NaN or infinities.
- Shape errors are not modelled: arrays of unequal shape, the network's input shape, and the channel axis that `newaxis` adds.
- Printing, progress messages, plotting and `to_string` are not modelled.
- Paths.Lower: folds ASCII letters only. Python's `str.lower` also folds other Unicode letters.
- ContentSuggestion.Recommend: does not fix the order of rows with equal distance. `sort_values` uses a sort that is not stable, so ties may come out in any order.
- GenrePrediction.PredictGenre: states the ranking as sorted and a permutation. Tie order is proved separately in GenrePrediction.RankedTiesKeepDocumentOrder.
- LibrosaConversion.ConvertAll: states the count and that every name written ends in ".npy", not the full list of files written. Which files each clip writes is stated per clip in LibrosaConversion.ProcessAudioFileWrites. A statement for the whole list would be the concatenation of those per-clip lists over the audio files in walk order.

## Findings

| source | as written | input that shows it | evidently intended | confidence | as-written member | corrected member |
|---|---|---|---|---|---|---|
| CS467_music_NN-main/content_suggestion.py:53 | the track path joins `audio_dir` with the file name, ignoring the directory the walk found the file in | `audio_dir` "songs" containing only `songs/rock/a.mp3`: the path "songs/a.mp3" is predicted, does not exist, and the uncaught exception aborts the build | `os.path.join(root, track_name)` | high; not executed | ContentSuggestion.SubdirectoryTrackMisjoined | ContentSuggestion.BuildRecommenderDb |

=== FILE: audio_windows.dfy ===
/** The arithmetic both feature extractors share: a 30-second window cut from a clip. */
module AudioWindows {

  /** Every analysis window is 30 seconds long (`duration=30.0`). */
  const WindowSeconds: real := 30.0

  /** `song_length // 2` on a Python float: half the length, rounded down to a whole second. */
  function HalfFloor(length: real): (r: real)
    ensures r <= length / 2.0 < r + 1.0
    ensures r == r.Floor as real
  {
    (length / 2.0).Floor as real
  }

  /** The window starting at `offset` lies inside a clip of `length` seconds. */
  predicate WithinClip(offset: real, length: real)
  {
    0.0 <= offset && offset + WindowSeconds <= length
  }
}

=== FILE: content_suggestion.dfy ===
/**
 * The recommender of content_suggestion.py: the L1 distance between two
 * genre-score vectors, ranking a catalog by distance to a query and keeping
 * the first rows, the catalog file's cell format, and the walk that fills the
 * catalog. `predict_genre(path, return_list=True)` is the parameter `predict`
 * (`None` when it raises); `str` of a score is the parameter `show` and
 * reading a token back is `read`.
 */
module ContentSuggestion {
  import opened Wrappers
  import opened Paths
  import opened Walks
  import Ranking
  import opened Filters

  /** `|x|` */
  function Abs(x: real): (r: real)
    ensures r >= 0.0 && (r == x || r == -x)
  {
    if x < 0.0 then -x else x
  }

  /** The sum of element-wise absolute differences of two vectors of equal length. */
  function L1(a: seq<real>, b: seq<real>): (r: real)
    requires |a| == |b|
    ensures r >= 0.0
  {
    if |a| == 0 then 0.0 else Abs(a[0] - b[0]) + L1(a[1..], b[1..])
  }

  /** The distance does not depend on the order of its arguments. */
  lemma {:induction false} L1Symmetric(a: seq<real>, b: seq<real>)
    requires |a| == |b|
    ensures L1(a, b) == L1(b, a)
  {
    if |a| > 0 {
      L1Symmetric(a[1..], b[1..]);
    }
  }

  /** The distance is zero exactly between equal vectors. */
  lemma {:induction false} L1ZeroIffEqual(a: seq<real>, b: seq<real>)
    requires |a| == |b|
    ensures L1(a, b) == 0.0 <==> a == b
  {
    if |a| > 0 {
      L1ZeroIffEqual(a[1..], b[1..]);
      if a == b {
        assert a[1..] == b[1..];
      } else if a[0] == b[0] {
        assert a == [a[0]] + a[1..] && b == [b[0]] + b[1..];
      }
    }
  }

  /** `n` copies of `x`: a length-1 array broadcast to length `n`. */
  function Repeat(x: real, n: nat): (r: seq<real>)
    ensures |r| == n && forall i :: 0 <= i < n ==> r[i] == x
  {
    seq(n, _ => x)
  }

  /** numpy can subtract the two vectors: equal lengths, or one of length 1. */
  predicate Compatible(query: seq<real>, row: seq<real>)
  {
    |query| == |row| || |query| == 1 || |row| == 1
  }

  /**
   * `calculate_absolute_difference(query, row)`: `np.sum(np.abs(row - query))`
   * with numpy broadcasting; vectors numpy cannot broadcast raise.
   */
  function AbsoluteDifference(query: seq<real>, row: seq<real>): (r: Option<real>)
    ensures r.Some? <==> Compatible(query, row)
    ensures r.Some? ==> r.value >= 0.0
    ensures |query| == |row| ==> r == Some(L1(row, query))
    ensures |query| == 1 && |row| != 1 ==> r == Some(L1(row, Repeat(query[0], |row|)))
    ensures |row| == 1 && |query| != 1 ==> r == Some(L1(Repeat(row[0], |query|), query))
  {
    if |query| == |row| then Some(L1(row, query))
    else if |query| == 1 then Some(L1(row, Repeat(query[0], |row|)))
    else if |row| == 1 then Some(L1(Repeat(row[0], |query|), query))
    else None
  }

  /** A catalog row as `read_csv` returns it: the title and its parsed score vector. */
  datatype Row = Row(title: string, predictions: seq<real>)

  datatype SuggestError = ShapeMismatch(title: string)

  /** Every catalog row can be compared with the query. */
  predicate AllCompatible(query: seq<real>, rows: seq<Row>)
  {
    forall i :: 0 <= i < |rows| ==> Compatible(query, rows[i].predictions)
  }

  /** The distance column: `apply` over the rows in order; the first row numpy rejects raises. */
  function Distances(query: seq<real>, rows: seq<Row>): (r: Result<seq<Ranking.Scored>, SuggestError>)
    ensures r.Ok? <==> AllCompatible(query, rows)
    ensures r.Ok? ==> |r.value| == |rows|
    ensures r.Ok? ==> forall i :: 0 <= i < |rows| ==>
              r.value[i].0 == rows[i].title && Some(r.value[i].1) == AbsoluteDifference(query, rows[i].predictions)
    ensures r.Err? ==> exists i :: 0 <= i < |rows| && !Compatible(query, rows[i].predictions)
                                   && r.error == ShapeMismatch(rows[i].title)
  {
    if |rows| == 0 then Ok([])
    else
      match AbsoluteDifference(query, rows[0].predictions)
      case None => Err(ShapeMismatch(rows[0].title))
      case Some(d) =>
        assert forall i :: 1 <= i < |rows| ==> rows[1..][i - 1] == rows[i];
        match Distances(query, rows[1..])
        case Err(e) => Err(e)
        case Ok(rest) => Ok([(rows[0].title, d)] + rest)
  }

  /** How many rows `head(n)` keeps of `len`: the first `n`, or all but the last `-n` when `n` is negative. */
  function HeadCount(len: nat, n: int): (r: nat)
    ensures r <= len
  {
    if n >= 0 then (if n < len then n else len)
    else if len + n > 0 then len + n else 0
  }

  /**
   * `DataFrame.head(n)`: the first `n` rows, or, for negative `n`, every row
   * but the last `-n`; asking for more rows than exist gives all or none.
   */
  function Head<T>(s: seq<T>, n: int): (r: seq<T>)
    ensures r <= s
    ensures n >= 0 ==> |r| == if n < |s| then n else |s|
    ensures n < 0 ==> |s| - |r| == if -n < |s| then -n else |s|
  {
    s[..HeadCount(|s|, n)]
  }

  /**
   * `recommender(query, catalog, rec_num)`: the catalog's titles with their
   * distances, closest first, cut to `rec_num` rows.
   */
  function Recommend(query: seq<real>, rows: seq<Row>, recNum: int): (r: Result<seq<Ranking.Scored>, SuggestError>)
    ensures r.Ok? <==> AllCompatible(query, rows)
    ensures r.Err? ==> r == Err(Distances(query, rows).error)
    ensures r.Ok? ==> Ranking.Sorted(r.value, false)
    ensures r.Ok? && recNum >= 0 ==> |r.value| == if recNum < |rows| then recNum else |rows|
    ensures r.Ok? && recNum < 0 ==> |rows| - |r.value| == if -recNum < |rows| then -recNum else |rows|
    ensures r.Ok? ==> multiset(r.value) <= multiset(Distances(query, rows).value)
  {
    match Distances(query, rows)
    case Err(e) => Err(e)
    case Ok(d) =>
      var sorted := Ranking.Sort(d, false);
      var top := Head(sorted, recNum);
      PrefixOfSorted(sorted, |top|);
      Ok(top)
  }

  /** A prefix of a sorted sequence is sorted, and is a sub-bag of it. */
  lemma PrefixOfSorted(s: seq<Ranking.Scored>, k: nat)
    requires Ranking.Sorted(s, false) && k <= |s|
    ensures Ranking.Sorted(s[..k], false)
    ensures multiset(s[..k]) <= multiset(s)
  {
    assert s == s[..k] + s[k..];
  }

  /** In an ascending sequence, nothing after position `k` is smaller than anything before it. */
  lemma SortedSplit(s: seq<Ranking.Scored>, k: nat)
    requires Ranking.Sorted(s, false) && k <= |s|
    ensures forall x, y :: x in s[..k] && y in s[k..] ==> x.1 <= y.1
  {
  }

  lemma RecommendIsHead(query: seq<real>, rows: seq<Row>, recNum: int)
    requires AllCompatible(query, rows)
    ensures var sorted := Ranking.Sort(Distances(query, rows).value, false);
            Recommend(query, rows, recNum).value == sorted[..HeadCount(|sorted|, recNum)]
  {
  }

  /** The rows `recommender` leaves out are never closer than the rows it returns. */
  lemma RecommendTopN(query: seq<real>, rows: seq<Row>, recNum: int)
    requires AllCompatible(query, rows)
    ensures forall x, y :: x in Recommend(query, rows, recNum).value
                           && y in multiset(Distances(query, rows).value) - multiset(Recommend(query, rows, recNum).value)
                           ==> x.1 <= y.1
  {
    var d := Distances(query, rows).value;
    var sorted := Ranking.Sort(d, false);
    var k := HeadCount(|sorted|, recNum);
    var top := Recommend(query, rows, recNum).value;
    var rest := sorted[k..];
    RecommendIsHead(query, rows, recNum);
    assert top == sorted[..k];
    SortedSplit(sorted, k);
    SplitBag(sorted, k);
    assert multiset(d) - multiset(top) == multiset(rest);
  }

  lemma SplitBag<T>(s: seq<T>, k: nat)
    requires k <= |s|
    ensures multiset(s[..k]) + multiset(s[k..]) == multiset(s)
  {
    assert s == s[..k] + s[k..];
  }

  /** A catalog row equal to the query is returned first, or tied with the first, at distance 0. */
  lemma ExactMatchRankedFirst(query: seq<real>, rows: seq<Row>, recNum: int, m: nat)
    requires AllCompatible(query, rows)
    requires m < |rows| && rows[m].predictions == query
    requires recNum >= 1
    ensures |Recommend(query, rows, recNum).value| >= 1
    ensures Recommend(query, rows, recNum).value[0].1 == 0.0
  {
    var d := Distances(query, rows).value;
    var sorted := Ranking.Sort(d, false);
    L1ZeroIffEqual(query, query);
    assert d[m].1 == 0.0;
    assert d[m] in multiset(sorted);
    var k :| 0 <= k < |sorted| && sorted[k] == d[m];
    assert sorted[0] in multiset(d);
    var n :| 0 <= n < |d| && d[n] == sorted[0];
    assert Ranking.InOrder(sorted[0], sorted[k], false) || k == 0;
  }

  /** No token of a row may contain the separator, nor be empty. */
  predicate ValidToken(t: string)
  {
    |t| > 0 && ',' !in t
  }

  /** `",".join(tokens)` */
  function JoinComma(tokens: seq<string>): string
  {
    if |tokens| == 0 then []
    else if |tokens| == 1 then tokens[0]
    else tokens[0] + "," + JoinComma(tokens[1..])
  }

  /** The position of the first ',' in `s`, or |s| when there is none. */
  function CommaIndex(s: string): (r: nat)
    ensures r <= |s|
    ensures r < |s| ==> s[r] == ','
    ensures forall k :: 0 <= k < r ==> s[k] != ','
  {
    if |s| == 0 || s[0] == ',' then 0 else 1 + CommaIndex(s[1..])
  }

  /** The comma-separated fields of `s`, as a list literal's elements are read. */
  function SplitComma(s: string): (r: seq<string>)
    ensures |r| >= 1
    decreases |s|
  {
    var i := CommaIndex(s);
    if i == |s| then [s] else [s[..i]] + SplitComma(s[i + 1..])
  }

  lemma {:induction false} SplitJoin(tokens: seq<string>)
    requires |tokens| >= 1
    requires forall i :: 0 <= i < |tokens| ==> ',' !in tokens[i]
    ensures SplitComma(JoinComma(tokens)) == tokens
  {
    var t := tokens[0];
    assert forall k :: 0 <= k < |t| ==> t[k] != ',' by {
      forall k | 0 <= k < |t| ensures t[k] != ',' { assert t[k] in t; }
    }
    if |tokens| == 1 {
      assert CommaIndex(t) == |t|;
    } else {
      var s := JoinComma(tokens);
      var tail := JoinComma(tokens[1..]);
      assert s == t + "," + tail;
      assert CommaIndex(s) == |t| by {
        CommaPrefix(t, tail);
      }
      assert s[..|t|] == t;
      assert s[|t| + 1..] == tail;
      assert forall i :: 0 <= i < |tokens| - 1 ==> tokens[1..][i] == tokens[i + 1];
      SplitJoin(tokens[1..]);
    }
  }

  /** The first ',' of `t + "," + tail` for a comma-free `t` is the one after `t`. */
  lemma {:induction false} CommaPrefix(t: string, tail: string)
    requires forall k :: 0 <= k < |t| ==> t[k] != ','
    ensures CommaIndex(t + "," + tail) == |t|
  {
    var s := t + "," + tail;
    assert s[|t|] == ',';
    assert forall k :: 0 <= k < |t| ==> s[k] == t[k];
  }

  /** The cell written for a score vector: `[v1,v2,...]`. */
  function FormatVector(tokens: seq<string>): string
  {
    "[" + JoinComma(tokens) + "]"
  }

  /** Reading a cell back as a list literal: the fields between the brackets. */
  function ParseVector(cell: string): Option<seq<string>>
  {
    if |cell| < 2 || cell[0] != '[' || cell[|cell| - 1] != ']' then None
    else if |cell| == 2 then Some([])
    else Some(SplitComma(cell[1..|cell| - 1]))
  }

  /** A formatted row parses back to the same tokens. */
  lemma FormatParse(tokens: seq<string>)
    requires forall i :: 0 <= i < |tokens| ==> ValidToken(tokens[i])
    ensures ParseVector(FormatVector(tokens)) == Some(tokens)
  {
    var cell := FormatVector(tokens);
    if |tokens| == 0 {
      assert cell == "[]";
    } else {
      assert |JoinComma(tokens)| > 0 by {
        JoinNonEmpty(tokens);
      }
      assert cell[1..|cell| - 1] == JoinComma(tokens);
      SplitJoin(tokens);
    }
  }

  lemma JoinNonEmpty(tokens: seq<string>)
    requires |tokens| >= 1 && |tokens[0]| > 0
    ensures |JoinComma(tokens)| > 0
  {
  }

  /** The cell `build_recommender_db` writes for a prediction. */
  function Cell(prediction: seq<real>, show: real -> string): string
  {
    FormatVector(seq(|prediction|, i requires 0 <= i < |prediction| => show(prediction[i])))
  }

  /** Reading a cell with `read` for each token. */
  function ReadCell(cell: string, read: string -> Option<real>): Option<seq<real>>
  {
    match ParseVector(cell)
    case None => None
    case Some(tokens) =>
      if forall i :: 0 <= i < |tokens| ==> read(tokens[i]).Some? then
        Some(seq(|tokens|, i requires 0 <= i < |tokens| && read(tokens[i]).Some? => read(tokens[i]).value))
      else None
  }

  /**
   * The catalog cell written for a prediction is read back as that
   * prediction, whenever each score prints as a non-empty comma-free token
   * that reads back as the score.
   */
  lemma CellRoundTrip(prediction: seq<real>, show: real -> string, read: string -> Option<real>)
    requires forall i :: 0 <= i < |prediction| ==> ValidToken(show(prediction[i])) && read(show(prediction[i])) == Some(prediction[i])
    ensures ReadCell(Cell(prediction, show), read) == Some(prediction)
  {
    var tokens := seq(|prediction|, i requires 0 <= i < |prediction| => show(prediction[i]));
    FormatParse(tokens);
    assert forall i :: 0 <= i < |tokens| ==> read(tokens[i]) == Some(prediction[i]);
    var values := seq(|tokens|, i requires 0 <= i < |tokens| && read(tokens[i]).Some? => read(tokens[i]).value);
    assert values == prediction;
  }

  /** The header row of the catalog file. */
  const Header: seq<string> := ["title", "genre_predictions"]

  /** `file_extension in ['.mp3', '.wav']`: exact, case-sensitive. */
  predicate IsCatalogTrack(path: string)
  {
    var ext := SplitExt(path).1;
    ext == ".mp3" || ext == ".wav"
  }

  /** What `build_recommender_db` leaves behind. */
  datatype DbOutcome =
    | Missing                                       // no file written: the directory does not exist
    | Built(rows: seq<seq<string>>)                 // every row written
    | Aborted(rows: seq<seq<string>>, path: string) // `predict_genre(path)` raised after `rows` were written

  /**
   * The loop of `build_recommender_db` over the walk's files, each file's
   * track path given by `pathOf`; the first prediction that raises ends it.
   */
  function CatalogRows(files: seq<FileRef>, pathOf: FileRef -> string,
                       predict: string -> Option<seq<real>>, show: real -> string): (r: DbOutcome)
    ensures !r.Missing?
    ensures |r.rows| >= 1 && r.rows[0] == Header
    ensures r.Built? <==> forall i :: 0 <= i < |files| && IsCatalogTrack(pathOf(files[i])) ==> predict(pathOf(files[i])).Some?
    ensures r.Aborted? ==> exists i :: 0 <= i < |files| && IsCatalogTrack(pathOf(files[i])) && predict(pathOf(files[i])).None?
                                       && r.path == pathOf(files[i])
  {
    if |files| == 0 then Built([Header])
    else
      var init := files[..|files| - 1];
      var f := files[|files| - 1];
      var before := CatalogRows(init, pathOf, predict, show);
      assert forall i :: 0 <= i < |init| ==> init[i] == files[i];
      if before.Aborted? then before
      else if !IsCatalogTrack(pathOf(f)) then before
      else match predict(pathOf(f))
        case None => Aborted(before.rows, pathOf(f))
        case Some(p) => Built(before.rows + [[f.name, Cell(p, show)]])
  }

  /** Once a prefix of the files has aborted the build, the rest of the walk changes nothing. */
  lemma {:induction false} AbortedStays(files: seq<FileRef>, k: nat, pathOf: FileRef -> string,
                                        predict: string -> Option<seq<real>>, show: real -> string)
    requires k <= |files| && CatalogRows(files[..k], pathOf, predict, show).Aborted?
    ensures CatalogRows(files, pathOf, predict, show) == CatalogRows(files[..k], pathOf, predict, show)
    decreases |files|
  {
    if |files| > k {
      var init := files[..|files| - 1];
      assert init[..k] == files[..k];
      AbortedStays(init, k, pathOf, predict, show);
    } else {
      assert files[..k] == files;
    }
  }

  /**
   * The first catalog track whose prediction raises ends the build: the file
   * keeps exactly the complete catalog of the files before it.
   */
  lemma {:induction false} FirstFailureAborts(files: seq<FileRef>, i: nat, pathOf: FileRef -> string,
                                              predict: string -> Option<seq<real>>, show: real -> string)
    requires i < |files| && IsCatalogTrack(pathOf(files[i])) && predict(pathOf(files[i])).None?
    requires forall j :: 0 <= j < i && IsCatalogTrack(pathOf(files[j])) ==> predict(pathOf(files[j])).Some?
    ensures CatalogRows(files[..i], pathOf, predict, show).Built?
    ensures CatalogRows(files, pathOf, predict, show) ==
              Aborted(CatalogRows(files[..i], pathOf, predict, show).rows, pathOf(files[i]))
  {
    PrefixBuilt(files, i, pathOf, predict, show);
    LastFails(files, i, pathOf, predict, show);
    AbortedStays(files, i + 1, pathOf, predict, show);
  }

  /** Files whose catalog tracks are all predicted build completely. */
  lemma {:induction false} PrefixBuilt(files: seq<FileRef>, i: nat, pathOf: FileRef -> string,
                                       predict: string -> Option<seq<real>>, show: real -> string)
    requires i <= |files|
    requires forall j :: 0 <= j < i && IsCatalogTrack(pathOf(files[j])) ==> predict(pathOf(files[j])).Some?
    ensures CatalogRows(files[..i], pathOf, predict, show).Built?
  {
    var p := files[..i];
    forall j | 0 <= j < |p| && IsCatalogTrack(pathOf(p[j]))
      ensures predict(pathOf(p[j])).Some?
    {
      assert p[j] == files[j];
    }
  }

  /** A build whose files so far were all predicted aborts at a last catalog track that cannot be. */
  lemma {:induction false} LastFails(files: seq<FileRef>, i: nat, pathOf: FileRef -> string,
                                     predict: string -> Option<seq<real>>, show: real -> string)
    requires i < |files| && CatalogRows(files[..i], pathOf, predict, show).Built?
    requires IsCatalogTrack(pathOf(files[i])) && predict(pathOf(files[i])).None?
    ensures CatalogRows(files[..i + 1], pathOf, predict, show) ==
              Aborted(CatalogRows(files[..i], pathOf, predict, show).rows, pathOf(files[i]))
  {
    assert files[..i + 1][..i] == files[..i];
  }

  /** The catalog tracks of `files` under `pathOf`, in walk order. */
  function CatalogTracks(files: seq<FileRef>, pathOf: FileRef -> string): (r: seq<FileRef>)
    ensures forall f :: f in r <==> f in files && IsCatalogTrack(pathOf(f))
  {
    FilterMembers(files, (f: FileRef) => IsCatalogTrack(pathOf(f)));
    Filter(files, (f: FileRef) => IsCatalogTrack(pathOf(f)))
  }

  /** A complete catalog holds the header and then one row per catalog track, in walk order. */
  lemma {:induction false} CatalogRowsComplete(files: seq<FileRef>, pathOf: FileRef -> string,
                                               predict: string -> Option<seq<real>>, show: real -> string)
    requires CatalogRows(files, pathOf, predict, show).Built?
    ensures var rows := CatalogRows(files, pathOf, predict, show).rows;
            var tracks := CatalogTracks(files, pathOf);
            && |rows| == 1 + |tracks|
            && forall i :: 0 <= i < |tracks| ==>
                 predict(pathOf(tracks[i])).Some? && rows[i + 1] == [tracks[i].name, Cell(predict(pathOf(tracks[i])).value, show)]
  {
    if |files| > 0 {
      var init := files[..|files| - 1];
      CatalogRowsComplete(init, pathOf, predict, show);
    }
  }

  /** The catalog is complete exactly when every catalog track the walk reaches can be predicted. */
  lemma CatalogCompleteIff(walk: seq<WalkStep>, pathOf: FileRef -> string,
                           predict: string -> Option<seq<real>>, show: real -> string)
    ensures CatalogRows(Files(walk), pathOf, predict, show).Built? <==>
              forall f :: Visits(walk, f) && IsCatalogTrack(pathOf(f)) ==> predict(pathOf(f)).Some?
  {
  }

  /** The track path as `build_recommender_db` builds it: the walked directory's top, not the file's own directory. */
  function AsWrittenPath(audioDir: string): FileRef -> string
  {
    (f: FileRef) => Join(audioDir, f.name)
  }

  /** The track path of the file the walk reached. */
  function TrackPath(f: FileRef): string
  {
    f.Path()
  }

  /**
   * `build_recommender_db(audio_dir, file_name)` as written: each track is
   * looked up under `audio_dir` itself, wherever the walk found it.
   */
  function BuildRecommenderDbAsWritten(audioDir: string, dirExists: bool, walk: seq<WalkStep>,
                                       predict: string -> Option<seq<real>>, show: real -> string): (r: DbOutcome)
    ensures !dirExists <==> r.Missing?
    ensures dirExists ==> |r.rows| >= 1 && r.rows[0] == Header
    ensures r.Built? <==> dirExists && forall f :: Visits(walk, f) && IsCatalogTrack(Join(audioDir, f.name)) ==>
                                                   predict(Join(audioDir, f.name)).Some?
  {
    if !dirExists then Missing
    else
      CatalogCompleteIff(walk, AsWrittenPath(audioDir), predict, show);
      CatalogRows(Files(walk), AsWrittenPath(audioDir), predict, show)
  }

  /**
   * `build_recommender_db(audio_dir, file_name)` with each track read from
   * the directory the walk found it in: the catalog is complete exactly when
   * every such track can be predicted.
   */
  function BuildRecommenderDb(audioDir: string, dirExists: bool, walk: seq<WalkStep>,
                              predict: string -> Option<seq<real>>, show: real -> string): (r: DbOutcome)
    ensures !dirExists <==> r.Missing?
    ensures dirExists ==> |r.rows| >= 1 && r.rows[0] == Header
    ensures r.Built? <==> dirExists && forall f :: Visits(walk, f) && IsCatalogTrack(f.Path()) ==> predict(f.Path()).Some?
  {
    if !dirExists then Missing
    else
      CatalogCompleteIff(walk, TrackPath, predict, show);
      CatalogRows(Files(walk), TrackPath, predict, show)
  }

  /** The rows of a complete catalog: the header, then one row per catalog track in walk order. */
  lemma CompleteCatalogRows(audioDir: string, walk: seq<WalkStep>,
                            predict: string -> Option<seq<real>>, show: real -> string)
    requires BuildRecommenderDb(audioDir, true, walk, predict, show).Built?
    ensures var rows := BuildRecommenderDb(audioDir, true, walk, predict, show).rows;
            var tracks := CatalogTracks(Files(walk), TrackPath);
            && |rows| == 1 + |tracks|
            && forall i :: 0 <= i < |tracks| ==>
                 predict(tracks[i].Path()).Some? && rows[i + 1] == [tracks[i].name, Cell(predict(tracks[i].Path()).value, show)]
  {
    CatalogRowsComplete(Files(walk), TrackPath, predict, show);
  }

  /** `k` is the last position of `c` in `s`. */
  lemma LastIndexOf(s: string, c: char, k: nat)
    requires k < |s| && s[k] == c && forall j :: k < j < |s| ==> s[j] != c
    ensures RFind(s, c) == k
  {
  }

  /** A track one directory below `songs`, predictable only from where it is. */
  const SongsWalk: seq<WalkStep> := [WalkStep("songs", []), WalkStep("songs/rock", ["a.mp3"])]

  function SongsPredict(path: string): Option<seq<real>>
  {
    if path == "songs/rock/a.mp3" then Some([1.0]) else None
  }

  lemma SongsWalkFiles()
    ensures Files(SongsWalk) == [FileRef("songs/rock", "a.mp3")]
  {
  }

  lemma MisjoinedPathIsTrack()
    ensures Join("songs", "a.mp3") == "songs/a.mp3"
    ensures IsCatalogTrack("songs/a.mp3")
  {
    LastIndexOf("songs/a.mp3", Sep, 5);
    LastIndexOf("songs/a.mp3", ExtSep, 7);
    assert "songs/a.mp3"[6] != ExtSep;
  }

  lemma OwnPathIsTrack()
    ensures Join("songs/rock", "a.mp3") == "songs/rock/a.mp3"
    ensures IsCatalogTrack("songs/rock/a.mp3")
  {
    LastIndexOf("songs/rock/a.mp3", Sep, 10);
    LastIndexOf("songs/rock/a.mp3", ExtSep, 12);
    assert "songs/rock/a.mp3"[11] != ExtSep;
  }

  /**
   * As written, the track in a sub-directory is looked up at "songs/a.mp3",
   * where it is not, and the build aborts.
   */
  lemma SubdirectoryTrackMisjoined(show: real -> string)
    ensures BuildRecommenderDbAsWritten("songs", true, SongsWalk, SongsPredict, show) == Aborted([Header], "songs/a.mp3")
  {
    SongsWalkFiles();
    MisjoinedPathIsTrack();
    var files := [FileRef("songs/rock", "a.mp3")];
    assert files[..0] == [];
    assert CatalogRows([], AsWrittenPath("songs"), SongsPredict, show) == Built([Header]);
  }

  /** The corrected build reads the same track from "songs/rock/a.mp3" and completes. */
  lemma SubdirectoryTrackFound(show: real -> string)
    ensures BuildRecommenderDb("songs", true, SongsWalk, SongsPredict, show).Built?
  {
    SongsWalkFiles();
    OwnPathIsTrack();
    var files := [FileRef("songs/rock", "a.mp3")];
    assert files[..0] == [];
  }
}

=== FILE: data_pipeline.dfy ===
/**
 * `pre_process` of model_creation/data_pipeline.py: walk a corpus of
 * precomputed spectrograms, pair each with the label of its directory, and
 * shuffle the two arrays with one permutation. `np.load` is the parameter
 * `load` (None when it raises); the permutation is the parameter `perm`.
 */
module DataPipeline {
  import opened Wrappers
  import opened Walks
  import opened LabelRegistry
  import opened Permutations

  datatype PipelineError =
    | NotFound(directory: string)   // the corpus root is not a directory
    | LoadFailed(path: string)      // `np.load` raised on this file
    | NoFeatures                    // no `.npy` file: indexing the empty array raises

  /** What `pre_process` returns, with the registry it writes to the label document. */
  datatype Dataset<F> = Dataset(data: seq<F>, labels: seq<nat>, registry: Registry)

  /** The loop's accumulators: the registry state and the `data` and `labels` lists. */
  datatype Collected<F> = Collected(assigner: Assigner, data: seq<F>, labels: seq<nat>)

  /** Every file of `files` loads. */
  predicate AllLoad<F>(files: seq<FileRef>, load: string -> Option<F>)
  {
    forall i :: 0 <= i < |files| ==> load(files[i].Path()).Some?
  }

  /** The body of the inner loop for one file: only a `.npy` file is loaded and labelled. */
  function Visit<F>(c: Collected<F>, f: FileRef, load: string -> Option<F>): Result<Collected<F>, PipelineError>
  {
    if !IsFeatureFile(f.name) then Ok(c)
    else match load(f.Path())
      case None => Err(LoadFailed(f.Path()))
      case Some(m) =>
        var a := Observe(c.assigner, f.Folder());
        Ok(Collected(a, c.data + [m], c.labels + [Get(a.labels, f.Folder())]))
  }

  /**
   * The accumulators after the `.npy` files `ff`: the registry their genre
   * names build, and per file its loaded matrix and the index of its
   * directory in that registry.
   */
  ghost predicate Tracks<F>(c: Collected<F>, ff: seq<FileRef>, load: string -> Option<F>)
  {
    && c.assigner == AssignAll(Folders(ff))
    && |c.data| == |ff| && |c.labels| == |ff|
    && (forall i :: 0 <= i < |ff| ==> load(ff[i].Path()) == Some(c.data[i]))
    && (forall i :: 0 <= i < |ff| ==>
          Has(c.assigner.labels, ff[i].Folder()) && c.labels[i] == Get(c.assigner.labels, ff[i].Folder()))
  }

  /** The nested loops over the walk's files, stopping at the first load that raises. */
  function Collect<F>(files: seq<FileRef>, load: string -> Option<F>): (r: Result<Collected<F>, PipelineError>)
    ensures r.Ok? <==> AllLoad(FeatureOnly(files), load)
    ensures r.Err? ==> exists i :: 0 <= i < |FeatureOnly(files)| && load(FeatureOnly(files)[i].Path()).None?
                                   && r.error == LoadFailed(FeatureOnly(files)[i].Path())
                                   && forall j :: 0 <= j < i ==> load(FeatureOnly(files)[j].Path()).Some?
    ensures r.Ok? ==> Tracks(r.value, FeatureOnly(files), load)
  {
    if |files| == 0 then Ok(Collected(Fresh, [], []))
    else
      var init := files[..|files| - 1];
      var f := files[|files| - 1];
      var ff := FeatureOnly(init);
      var extra := if IsFeatureFile(f.name) then [f] else [];
      assert FeatureOnly(files) == ff + extra;
      match Collect(init, load)
      case Err(e) =>
        AllLoadExtend(ff, extra, load);
        Err(e)
      case Ok(c) =>
        AllLoadExtend(ff, extra, load);
        if !IsFeatureFile(f.name) then
          assert ff + extra == ff;
          Ok(c)
        else if load(f.Path()).None? then
          assert (ff + extra)[|ff|] == f;
          Err(LoadFailed(f.Path()))
        else
          var d := Visit(c, f, load).value;
          CollectStep(ff, f, c, d, load);
          Ok(d)
  }

  /** Loading a longer list of files succeeds exactly when both parts load; a failure in the first part stays a failure. */
  lemma AllLoadExtend<F>(ff: seq<FileRef>, extra: seq<FileRef>, load: string -> Option<F>)
    ensures AllLoad(ff + extra, load) <==> AllLoad(ff, load) && AllLoad(extra, load)
    ensures forall i :: 0 <= i < |ff| ==> (ff + extra)[i] == ff[i]
  {
    if AllLoad(ff, load) && AllLoad(extra, load) {
      forall i | 0 <= i < |ff + extra|
        ensures load((ff + extra)[i].Path()).Some?
      {
        if i >= |ff| {
          assert (ff + extra)[i] == extra[i - |ff|];
        }
      }
    }
    if AllLoad(ff + extra, load) {
      forall i | 0 <= i < |extra|
        ensures load(extra[i].Path()).Some?
      {
        assert (ff + extra)[|ff| + i] == extra[i];
      }
      forall i | 0 <= i < |ff|
        ensures load(ff[i].Path()).Some?
      {
        assert (ff + extra)[i] == ff[i];
      }
    }
  }

  /** Loading one more `.npy` file keeps the earlier labels and pairs the new one with its directory's index. */
  lemma CollectStep<F>(earlier: seq<FileRef>, f: FileRef, c: Collected<F>, d: Collected<F>, load: string -> Option<F>)
    requires IsFeatureFile(f.name)
    requires Tracks(c, earlier, load)
    requires Visit(c, f, load) == Ok(d)
    ensures Tracks(d, earlier + [f], load)
  {
    var g := f.Folder();
    assert Folders(earlier + [f]) == Folders(earlier) + [g];
    StepPairs(earlier, f, c, load(f.Path()).value, load);
  }

  /** The pairs after one more loaded file: the earlier ones unchanged, the new one last. */
  lemma StepPairs<F>(earlier: seq<FileRef>, f: FileRef, c: Collected<F>, m: F, load: string -> Option<F>)
    requires load(f.Path()) == Some(m)
    requires |c.data| == |earlier| && |c.labels| == |earlier|
    requires forall i :: 0 <= i < |earlier| ==> load(earlier[i].Path()) == Some(c.data[i])
    requires forall i :: 0 <= i < |earlier| ==>
               Has(c.assigner.labels, earlier[i].Folder()) && c.labels[i] == Get(c.assigner.labels, earlier[i].Folder())
    ensures var a := Observe(c.assigner, f.Folder());
            var ff := earlier + [f];
            && (forall i :: 0 <= i < |ff| ==> load(ff[i].Path()) == Some((c.data + [m])[i]))
            && (forall i :: 0 <= i < |ff| ==>
                  Has(a.labels, ff[i].Folder()) && (c.labels + [Get(a.labels, f.Folder())])[i] == Get(a.labels, ff[i].Folder()))
  {
    var g := f.Folder();
    var a := Observe(c.assigner, g);
    var ff := earlier + [f];
    forall i | 0 <= i < |ff|
      ensures load(ff[i].Path()) == Some((c.data + [m])[i])
      ensures Has(a.labels, ff[i].Folder())
      ensures (c.labels + [Get(a.labels, g)])[i] == Get(a.labels, ff[i].Folder())
    {
      if i < |earlier| {
        assert ff[i] == earlier[i];
        ObserveKeepsIndices(c.assigner, g, earlier[i].Folder());
      } else {
        assert ff[i] == f;
      }
    }
  }

  /** `np.array(data)[perm]` and `np.array(labels)[perm]`, with the registry the walk built. */
  function Shuffle<F>(c: Collected<F>, perm: seq<nat>): (r: Dataset<F>)
    requires forall i :: 0 <= i < |perm| ==> perm[i] < |c.data| && perm[i] < |c.labels|
    ensures |r.data| == |perm| && |r.labels| == |perm| && r.registry == c.assigner.labels
  {
    Dataset(Permute(c.data, perm), Permute(c.labels, perm), c.assigner.labels)
  }

  /**
   * `pre_process(data_directory)`: `isDir` says whether the root is a
   * directory, `walk` is what `os.walk` yields under it.
   */
  function PreProcess<F>(dataDirectory: string, isDir: bool, walk: seq<WalkStep>,
                         load: string -> Option<F>, perm: seq<nat>): (r: Result<Dataset<F>, PipelineError>)
    requires IsPermutation(perm, |FeatureFiles(walk)|)
    ensures !isDir ==> r == Err(NotFound(dataDirectory))
    ensures r.Ok? <==> isDir && |FeatureFiles(walk)| > 0 && AllLoad(FeatureFiles(walk), load)
    ensures isDir && AllLoad(FeatureFiles(walk), load) && |FeatureFiles(walk)| == 0 ==> r == Err(NoFeatures)
    ensures isDir && !AllLoad(FeatureFiles(walk), load) ==> r == Err(Collect(Files(walk), load).error)
  {
    if !isDir then Err(NotFound(dataDirectory))
    else match Collect(Files(walk), load)
      case Err(e) => Err(e)
      case Ok(c) =>
        assert Tracks(c, FeatureFiles(walk), load);
        if |c.data| == 0 then Err(NoFeatures)
        else
          PermutationInRange(perm, |FeatureFiles(walk)|);
          Ok(Shuffle(c, perm))
  }

  /**
   * The dataset of a walk: the registry of its `.npy` files, and in row i
   * the matrix of file `perm[i]` with the index of that file's directory.
   */
  lemma PreProcessRows<F>(dataDirectory: string, isDir: bool, walk: seq<WalkStep>,
                          load: string -> Option<F>, perm: seq<nat>)
    requires IsPermutation(perm, |FeatureFiles(walk)|)
    requires PreProcess(dataDirectory, isDir, walk, load, perm).Ok?
    ensures var d := PreProcess(dataDirectory, isDir, walk, load, perm).value;
            && d.registry == BuildRegistry(walk)
            && |d.data| == |FeatureFiles(walk)| && |d.labels| == |FeatureFiles(walk)|
            && (forall i :: 0 <= i < |d.labels| ==> d.labels[i] < |d.registry|)
            && forall i :: 0 <= i < |perm| ==>
                 && perm[i] < |FeatureFiles(walk)|
                 && load(FeatureFiles(walk)[perm[i]].Path()) == Some(d.data[i])
                 && Has(d.registry, FeatureFiles(walk)[perm[i]].Folder())
                 && d.labels[i] == Get(d.registry, FeatureFiles(walk)[perm[i]].Folder())
  {
    var c := Collect(Files(walk), load).value;
    assert Tracks(c, FeatureFiles(walk), load);
    PermutationInRange(perm, |FeatureFiles(walk)|);
    ShuffledRows(c, FeatureFiles(walk), load, perm);
  }

  /** After the shuffle, row i holds the matrix and the label of file `perm[i]`. */
  lemma ShuffledRows<F>(c: Collected<F>, ff: seq<FileRef>, load: string -> Option<F>, perm: seq<nat>)
    requires Tracks(c, ff, load)
    requires forall i :: 0 <= i < |perm| ==> perm[i] < |ff|
    ensures forall i :: 0 <= i < |perm| ==> Permute(c.labels, perm)[i] < |c.assigner.labels|
    ensures forall i :: 0 <= i < |perm| ==>
              && load(ff[perm[i]].Path()) == Some(Permute(c.data, perm)[i])
              && Has(c.assigner.labels, ff[perm[i]].Folder())
              && Permute(c.labels, perm)[i] == Get(c.assigner.labels, ff[perm[i]].Folder())
  {
  }

  /**
   * The shuffle moves whole (matrix, label) rows: the shuffled rows are the
   * unshuffled rows of the walk, each as often as before.
   */
  lemma ShuffleKeepsExamples<F>(dataDirectory: string, isDir: bool, walk: seq<WalkStep>,
                                load: string -> Option<F>, perm: seq<nat>)
    requires IsPermutation(perm, |FeatureFiles(walk)|)
    requires PreProcess(dataDirectory, isDir, walk, load, perm).Ok?
    ensures Collect(Files(walk), load).Ok?
    ensures var d := PreProcess(dataDirectory, isDir, walk, load, perm).value;
            var c := Collect(Files(walk), load).value;
            multiset(Zip(d.data, d.labels)) == multiset(Zip(c.data, c.labels))
  {
    var c := Collect(Files(walk), load).value;
    PermutationInRange(perm, |FeatureFiles(walk)|);
    ZipPermute(c.data, c.labels, perm);
    PermuteKeepsMultiset(Zip(c.data, c.labels), perm);
  }
}

=== FILE: filters.dfy ===
/** Keeping the elements of a sequence that pass a test, as a Python `if` inside a loop does. */
module Filters {

  /** The elements of `s` that satisfy `keep`, in their original order. */
  function Filter<T>(s: seq<T>, keep: T -> bool): (r: seq<T>)
    ensures |r| <= |s|
  {
    if |s| == 0 then []
    else
      var last := s[|s| - 1];
      Filter(s[..|s| - 1], keep) + (if keep(last) then [last] else [])
  }

  /** An element is kept exactly when it is in `s` and passes. */
  lemma {:induction false} FilterMembers<T>(s: seq<T>, keep: T -> bool)
    ensures forall i :: 0 <= i < |Filter(s, keep)| ==> Filter(s, keep)[i] in s && keep(Filter(s, keep)[i])
    ensures forall i :: 0 <= i < |s| && keep(s[i]) ==> s[i] in Filter(s, keep)
  {
    if |s| > 0 {
      var init := s[..|s| - 1];
      FilterMembers(init, keep);
      assert s == init + [s[|s| - 1]];
    }
  }

  /** A single element is kept exactly when it passes. */
  lemma FilterOne<T>(x: T, keep: T -> bool)
    ensures Filter([x], keep) == if keep(x) then [x] else []
  {
    assert [x][..0] == [];
  }

  /** Filtering distributes over concatenation. */
  lemma {:induction false} FilterAppend<T>(a: seq<T>, b: seq<T>, keep: T -> bool)
    ensures Filter(a + b, keep) == Filter(a, keep) + Filter(b, keep)
    decreases |b|
  {
    if |b| == 0 {
      assert a + b == a;
    } else {
      assert (a + b)[..|a + b| - 1] == a + b[..|b| - 1];
      FilterAppend(a, b[..|b| - 1], keep);
    }
  }

  /** Nothing is dropped exactly when every element passes. */
  lemma {:induction false} FilterAll<T>(s: seq<T>, keep: T -> bool)
    ensures |Filter(s, keep)| == |s| <==> forall i :: 0 <= i < |s| ==> keep(s[i])
  {
    if |s| > 0 {
      var init := s[..|s| - 1];
      FilterAll(init, keep);
      assert forall i :: 0 <= i < |init| ==> init[i] == s[i];
    }
  }
}

=== FILE: genre_prediction.dfy ===
/**
 * Inference of genre_prediction.py: the label document written from the
 * training corpus, the window fed to the network, and the shaping of the
 * network's scores into named, ranked results. The network is a parameter
 * (`None` when the saved model cannot be loaded, a function returning `None`
 * when it rejects its input); reading the label document is the parameter
 * `labels` (`None` when the file is missing).
 */
module GenrePrediction {
  import opened Wrappers
  import opened Paths
  import opened Walks
  import opened AudioWindows
  import opened LabelRegistry
  import opened Filters
  import Ranking

  /** The training corpus directory `save_json_genre_labels` reads. */
  const CorpusDirectory: string := "genres_original"
  /** Clips longer than this are sampled from the middle. */
  const MiddleSeconds: real := 65.0

  datatype PredictionError =
    | NotFound(directory: string)
    | AudioFailed(path: string)
    | ModelNotFound
    | ModelFailed
    | LabelsNotFound
    | IndexOutOfRange(key: string)

  /** The inner loop of `save_json_genre_labels` over the files of one walk step. */
  function ObserveStep(a: Assigner, root: string, files: seq<string>): Assigner
  {
    if |files| == 0 then a
    else
      var before := ObserveStep(a, root, files[..|files| - 1]);
      if IsFeatureFile(files[|files| - 1]) then Observe(before, Basename(root)) else before
  }

  /** The outer loop of `save_json_genre_labels` over the steps of the walk. */
  function ObserveWalk(a: Assigner, walk: seq<WalkStep>): Assigner
  {
    if |walk| == 0 then a
    else ObserveStep(ObserveWalk(a, walk[..|walk| - 1]), walk[|walk| - 1].root, walk[|walk| - 1].files)
  }

  /** Observing a list of genre names from a given starting state. */
  function ObserveAll(a: Assigner, names: seq<string>): Assigner
  {
    if |names| == 0 then a else Observe(ObserveAll(a, names[..|names| - 1]), names[|names| - 1])
  }

  lemma {:induction false} ObserveAllFresh(names: seq<string>)
    ensures ObserveAll(Fresh, names) == AssignAll(names)
  {
    if |names| > 0 {
      ObserveAllFresh(names[..|names| - 1]);
    }
  }

  lemma {:induction false} ObserveAllAppend(a: Assigner, x: seq<string>, y: seq<string>)
    ensures ObserveAll(a, x + y) == ObserveAll(ObserveAll(a, x), y)
    decreases |y|
  {
    if |y| == 0 {
      assert x + y == x;
    } else {
      assert (x + y)[..|x + y| - 1] == x + y[..|y| - 1];
      ObserveAllAppend(a, x, y[..|y| - 1]);
    }
  }

  lemma StepFilesAppend(root: string, init: seq<string>, last: string)
    ensures StepFiles(WalkStep(root, init + [last])) == StepFiles(WalkStep(root, init)) + [FileRef(root, last)]
  {
  }

  lemma FoldersAppend(x: seq<FileRef>, y: seq<FileRef>)
    ensures Folders(x + y) == Folders(x) + Folders(y)
  {
  }

  /** The genre names a single file contributes: its directory's name when it is a `.npy` file. */
  lemma FoldersOfOne(f: FileRef)
    ensures Folders(FeatureOnly([f])) == if IsFeatureFile(f.name) then [f.Folder()] else []
  {
  }

  /** The genre names the `.npy` files of one step contribute, in listing order. */
  function StepNames(root: string, files: seq<string>): seq<string>
  {
    if |files| == 0 then []
    else StepNames(root, files[..|files| - 1]) + (if IsFeatureFile(files[|files| - 1]) then [Basename(root)] else [])
  }

  lemma {:induction false} ObserveStepIsObserveNames(a: Assigner, root: string, files: seq<string>)
    ensures ObserveStep(a, root, files) == ObserveAll(a, StepNames(root, files))
  {
    if |files| > 0 {
      var init := files[..|files| - 1];
      var extra := if IsFeatureFile(files[|files| - 1]) then [Basename(root)] else [];
      ObserveStepIsObserveNames(a, root, init);
      ObserveAllAppend(a, StepNames(root, init), extra);
      if extra == [] {
        assert StepNames(root, init) + extra == StepNames(root, init);
      }
    }
  }

  lemma {:induction false} StepNamesAreFolders(root: string, files: seq<string>)
    ensures StepNames(root, files) == Folders(FeatureOnly(StepFiles(WalkStep(root, files))))
  {
    if |files| > 0 {
      var init := files[..|files| - 1];
      var last := files[|files| - 1];
      var f := FileRef(root, last);
      var head := StepFiles(WalkStep(root, init));
      StepNamesAreFolders(root, init);
      assert files == init + [last];
      StepFilesAppend(root, init, last);
      FilterAppend(head, [f], IsFeatureRef);
      FoldersAppend(FeatureOnly(head), FeatureOnly([f]));
      FoldersOfOne(f);
    }
  }

  /** The inner loop observes the genre names of the step's `.npy` files. */
  lemma ObserveStepIsObserveAll(a: Assigner, root: string, files: seq<string>)
    ensures ObserveStep(a, root, files) == ObserveAll(a, Folders(FeatureOnly(StepFiles(WalkStep(root, files)))))
  {
    ObserveStepIsObserveNames(a, root, files);
    StepNamesAreFolders(root, files);
  }

  /** The genre names the `.npy` files of a walk contribute, step by step. */
  function WalkNames(walk: seq<WalkStep>): seq<string>
  {
    if |walk| == 0 then []
    else WalkNames(walk[..|walk| - 1]) + StepNames(walk[|walk| - 1].root, walk[|walk| - 1].files)
  }

  lemma {:induction false} ObserveWalkIsObserveNames(a: Assigner, walk: seq<WalkStep>)
    ensures ObserveWalk(a, walk) == ObserveAll(a, WalkNames(walk))
  {
    if |walk| > 0 {
      var init := walk[..|walk| - 1];
      var step := walk[|walk| - 1];
      ObserveWalkIsObserveNames(a, init);
      ObserveStepIsObserveNames(ObserveWalk(a, init), step.root, step.files);
      ObserveAllAppend(a, WalkNames(init), StepNames(step.root, step.files));
    }
  }

  lemma {:induction false} WalkNamesAreFolders(walk: seq<WalkStep>)
    ensures WalkNames(walk) == Folders(FeatureFiles(walk))
  {
    if |walk| > 0 {
      var init := walk[..|walk| - 1];
      var step := walk[|walk| - 1];
      WalkNamesAreFolders(init);
      StepNamesAreFolders(step.root, step.files);
      assert step == WalkStep(step.root, step.files);
      FilterAppend(Files(init), StepFiles(step), IsFeatureRef);
      FoldersAppend(FeatureOnly(Files(init)), FeatureOnly(StepFiles(step)));
    }
  }

  /** The two nested loops observe the genre names of all of the walk's `.npy` files, in order. */
  lemma ObserveWalkIsObserveAll(a: Assigner, walk: seq<WalkStep>)
    ensures ObserveWalk(a, walk) == ObserveAll(a, Folders(FeatureFiles(walk)))
  {
    ObserveWalkIsObserveNames(a, walk);
    WalkNamesAreFolders(walk);
  }

  /**
   * `save_json_genre_labels()`: the document written for the corpus walk. It
   * is the registry the training pipeline builds from the same walk, so the
   * indices the network learned and the names inference reports agree.
   */
  function SaveJsonGenreLabels(isDir: bool, walk: seq<WalkStep>): (r: Result<Registry, PredictionError>)
    ensures !isDir ==> r == Err(NotFound(CorpusDirectory))
    ensures isDir ==> r.Ok? && r.value == BuildRegistry(walk) && Valid(r.value)
  {
    if !isDir then Err(NotFound(CorpusDirectory))
    else
      ObserveWalkIsObserveAll(Fresh, walk);
      ObserveAllFresh(Folders(FeatureFiles(walk)));
      Ok(ObserveWalk(Fresh, walk).labels)
  }

  /** `start_time` of inference: the middle, rounded down, of a clip longer than 65 seconds. */
  function InferenceStart(length: real): (r: real)
    ensures length > MiddleSeconds ==> r <= length / 2.0 < r + 1.0 && r == r.Floor as real
    ensures length <= MiddleSeconds ==> r == 0.0
    ensures length >= WindowSeconds ==> WithinClip(r, length)
  {
    if length > MiddleSeconds then HalfFloor(length) else 0.0
  }

  /** The inference window lies inside the clip exactly when the clip lasts at least 30 seconds. */
  lemma InferenceWindowWithinClip(length: real)
    ensures WithinClip(InferenceStart(length), length) <==> length >= WindowSeconds
  {
  }

  /** `process_audio_file(path)`: the spectrogram of the inference window, or the failure. */
  function InferenceInput<S>(path: string, duration: string -> Option<real>,
                             extract: (string, real) -> Option<S>): (r: Result<S, PredictionError>)
    ensures r.Ok? <==> duration(path).Some? && extract(path, InferenceStart(duration(path).value)).Some?
    ensures r.Ok? ==> r.value == extract(path, InferenceStart(duration(path).value)).value
    ensures r.Err? ==> r.error == AudioFailed(path)
  {
    match duration(path)
    case None => Err(AudioFailed(path))
    case Some(length) =>
      match extract(path, InferenceStart(length))
      case None => Err(AudioFailed(path))
      case Some(spec) => Ok(spec)
  }

  /** Every class index of the document addresses a score of the network. */
  predicate IndicesInRange(labels: Registry, results: seq<real>)
  {
    forall i :: 0 <= i < |labels| ==> labels[i].1 < |results|
  }

  /** Genre name and score, entry by entry of the document. */
  function Scores(labels: Registry, results: seq<real>): (r: seq<Ranking.Scored>)
    requires IndicesInRange(labels, results)
    ensures |r| == |labels|
    ensures forall i :: 0 <= i < |labels| ==> r[i] == (labels[i].0, results[labels[i].1])
  {
    seq(|labels|, i requires 0 <= i < |labels| => (labels[i].0, results[labels[i].1]))
  }

  /**
   * The loop building `results_dictionary`: each key of the document in
   * order, paired with the score at its index; the first index past the end
   * of the scores raises.
   */
  function NameScores(labels: Registry, results: seq<real>): (r: Result<seq<Ranking.Scored>, PredictionError>)
    ensures r.Ok? <==> IndicesInRange(labels, results)
    ensures r.Ok? ==> r.value == Scores(labels, results)
    ensures r.Err? ==> exists i :: 0 <= i < |labels| && labels[i].1 >= |results| && r.error == IndexOutOfRange(labels[i].0)
                                   && forall j :: 0 <= j < i ==> labels[j].1 < |results|
  {
    if |labels| == 0 then Ok([])
    else if labels[0].1 >= |results| then Err(IndexOutOfRange(labels[0].0))
    else
      match NameScores(labels[1..], results)
      case Err(e) =>
        assert forall i :: 0 <= i < |labels| - 1 ==> labels[1..][i] == labels[i + 1];
        Err(e)
      case Ok(rest) =>
        assert forall i :: 1 <= i < |labels| ==> labels[1..][i - 1] == labels[i];
        Ok([(labels[0].0, results[labels[0].1])] + rest)
  }

  /** What `predict_genre` returns: ranked (name, score) pairs, or bare percentages in document order. */
  datatype Prediction =
    | Ranked(ranked: seq<Ranking.Scored>)
    | Percentages(values: seq<real>)

  /** The final step of `predict_genre`: sort by score, highest first, or list the percentages. */
  function ShapeResults(named: seq<Ranking.Scored>, returnList: bool): (r: Prediction)
    ensures returnList ==> r.Percentages? && |r.values| == |named|
    ensures returnList ==> forall i :: 0 <= i < |named| ==> r.values[i] == named[i].1 * 100.0
    ensures !returnList ==> r.Ranked? && Ranking.Sorted(r.ranked, true) && multiset(r.ranked) == multiset(named)
  {
    if returnList then Percentages(seq(|named|, i requires 0 <= i < |named| => named[i].1 * 100.0))
    else Ranked(Ranking.Sort(named, true))
  }

  /**
   * `predict_genre(path, return_list)`. The steps fail in the source's order:
   * the audio, loading the model, running it, reading the label document,
   * and looking up each index.
   */
  function PredictGenre<S>(path: string, returnList: bool,
                           duration: string -> Option<real>, extract: (string, real) -> Option<S>,
                           model: Option<S -> Option<seq<real>>>, labels: Option<Registry>): (r: Result<Prediction, PredictionError>)
    requires labels.Some? ==> DistinctKeys(labels.value)
    ensures InferenceInput(path, duration, extract).Err? ==> r == Err(AudioFailed(path))
    ensures InferenceInput(path, duration, extract).Ok? && model.None? ==> r == Err(ModelNotFound)
    ensures InferenceInput(path, duration, extract).Ok? && model.Some? ==>
              var results := model.value(InferenceInput(path, duration, extract).value);
              && (results.None? ==> r == Err(ModelFailed))
              && (results.Some? && labels.None? ==> r == Err(LabelsNotFound))
              && (results.Some? && labels.Some? && !IndicesInRange(labels.value, results.value) ==>
                    exists i :: 0 <= i < |labels.value| && labels.value[i].1 >= |results.value|
                                && r == Err(IndexOutOfRange(labels.value[i].0))
                                && forall j :: 0 <= j < i ==> labels.value[j].1 < |results.value|)
    ensures r.Ok? <==> && InferenceInput(path, duration, extract).Ok?
                       && model.Some?
                       && model.value(InferenceInput(path, duration, extract).value).Some?
                       && labels.Some?
                       && IndicesInRange(labels.value, model.value(InferenceInput(path, duration, extract).value).value)
    ensures r.Ok? ==>
              var results := model.value(InferenceInput(path, duration, extract).value).value;
              var named := Scores(labels.value, results);
              && (returnList ==> r.value.Percentages? && |r.value.values| == |labels.value|
                                 && forall i :: 0 <= i < |labels.value| ==> r.value.values[i] == results[labels.value[i].1] * 100.0)
              && (!returnList ==> r.value.Ranked? && Ranking.Sorted(r.value.ranked, true)
                                  && multiset(r.value.ranked) == multiset(named))
  {
    match InferenceInput(path, duration, extract)
    case Err(e) => Err(e)
    case Ok(spec) =>
      match model
      case None => Err(ModelNotFound)
      case Some(serve) =>
        match serve(spec)
        case None => Err(ModelFailed)
        case Some(results) =>
          match labels
          case None => Err(LabelsNotFound)
          case Some(doc) =>
            match NameScores(doc, results)
            case Err(e) => Err(e)
            case Ok(named) => Ok(ShapeResults(named, returnList))
  }

  /**
   * With the document `save_json_genre_labels` writes (indices 0..n-1 in
   * order), the percentage list is the network's first n scores times 100.
   */
  lemma PercentagesFollowClassIndex(labels: Registry, results: seq<real>)
    requires Dense(labels) && |labels| <= |results|
    ensures IndicesInRange(labels, results)
    ensures forall i :: 0 <= i < |labels| ==> ShapeResults(Scores(labels, results), true).values[i] == results[i] * 100.0
  {
  }

  /** Ranked results list genres of equal score in the order of the label document. */
  lemma RankedTiesKeepDocumentOrder(named: seq<Ranking.Scored>, v: real)
    ensures Ranking.Ties(ShapeResults(named, false).ranked, v) == Ranking.Ties(named, v)
  {
    Ranking.SortIsStable(named, true, v);
  }
}

=== FILE: label_registry.dfy ===
/**
 * The genre label registry: the name-to-index document built while walking a
 * corpus whose sub-directories are genres (genre_prediction.py and
 * model_creation/data_pipeline.py build it with the same loop).
 */
module LabelRegistry {
  import opened Paths
  import opened Walks
  import opened Filters

  /** Precomputed spectrograms are recognised by this case-sensitive suffix. */
  const FeatureExt: string := ".npy"

  predicate IsFeatureFile(name: string)
  {
    EndsWith(name, FeatureExt)
  }

  /** The file is a spectrogram `pre_process` loads. */
  predicate IsFeatureRef(f: FileRef)
  {
    IsFeatureFile(f.name)
  }

  /** The `.npy` files among `files`, in order. */
  function FeatureOnly(files: seq<FileRef>): (r: seq<FileRef>)
    ensures |r| <= |files|
    ensures forall f :: f in r <==> f in files && IsFeatureFile(f.name)
  {
    FilterMembers(files, IsFeatureRef);
    Filter(files, IsFeatureRef)
  }

  /** The `.npy` files of a walk in visiting order. */
  function FeatureFiles(walk: seq<WalkStep>): seq<FileRef>
  {
    FeatureOnly(Files(walk))
  }

  /** The genre name of each file: the base name of its directory. */
  function Folders(files: seq<FileRef>): (r: seq<string>)
    ensures |r| == |files|
    ensures forall i :: 0 <= i < |files| ==> r[i] == files[i].Folder()
  {
    seq(|files|, i requires 0 <= i < |files| => files[i].Folder())
  }

  /**
   * The label document: genre name to class index, in insertion order (a
   * Python dict, which `json.dump` writes and `json.load` reads back in that
   * order).
   */
  type Registry = seq<(string, nat)>

  /** The document has an entry for `key`. */
  predicate Has(reg: Registry, key: string)
  {
    exists i :: 0 <= i < |reg| && reg[i].0 == key
  }

  /** The position of the first entry for `key`. */
  function Find(reg: Registry, key: string): (r: nat)
    requires Has(reg, key)
    ensures r < |reg| && reg[r].0 == key
    ensures forall i :: 0 <= i < r ==> reg[i].0 != key
  {
    if reg[0].0 == key then 0
    else
      assert Has(reg[1..], key) by {
        var i :| 0 <= i < |reg| && reg[i].0 == key;
        assert reg[1..][i - 1].0 == key;
      }
      1 + Find(reg[1..], key)
  }

  /** `reg[key]` */
  function Get(reg: Registry, key: string): nat
    requires Has(reg, key)
  {
    reg[Find(reg, key)].1
  }

  /** Entry i carries index i. */
  predicate Dense(reg: Registry)
  {
    forall i :: 0 <= i < |reg| ==> reg[i].1 == i
  }

  predicate DistinctKeys(reg: Registry)
  {
    forall i, j :: 0 <= i < j < |reg| ==> reg[i].0 != reg[j].0
  }

  /** A bijection between the names and the indices 0..|reg|-1. */
  predicate Valid(reg: Registry)
  {
    Dense(reg) && DistinctKeys(reg)
  }

  /** In a valid registry, looking up the name of entry i gives back i. */
  lemma ValidLookup(reg: Registry)
    requires Valid(reg)
    ensures forall i :: 0 <= i < |reg| ==> Has(reg, reg[i].0) && Get(reg, reg[i].0) == i
    ensures forall k :: Has(reg, k) ==> Get(reg, k) < |reg|
  {
  }

  /** The state of the assignment loop: the dict and `last_unused_label`. */
  datatype Assigner = Assigner(labels: Registry, lastUnused: nat)

  const Fresh: Assigner := Assigner([], 0)

  /** One `.npy` file seen in the directory named `genre`: a new name takes the next unused label. */
  function Observe(a: Assigner, genre: string): (r: Assigner)
    ensures Has(r.labels, genre)
    ensures Has(a.labels, genre) ==> r == a
    ensures !Has(a.labels, genre) ==> r.labels == a.labels + [(genre, a.lastUnused)]
  {
    if Has(a.labels, genre) then a
    else
      var r := Assigner(a.labels + [(genre, a.lastUnused)], a.lastUnused + 1);
      assert r.labels[|a.labels|].0 == genre;
      r
  }

  /** A name already in the registry keeps its index when another file is observed. */
  lemma ObserveKeepsIndices(a: Assigner, genre: string, key: string)
    requires Has(a.labels, key)
    ensures Has(Observe(a, genre).labels, key)
    ensures Get(Observe(a, genre).labels, key) == Get(a.labels, key)
  {
    var r := Observe(a, genre);
    var p := Find(a.labels, key);
    assert r.labels[p] == a.labels[p];
    assert Find(r.labels, key) == p by {
      forall j | 0 <= j < p
        ensures r.labels[j].0 != key
      {
        assert r.labels[j] == a.labels[j];
      }
    }
  }

  /** The assignment loop over the genre names of the `.npy` files, in visiting order. */
  function AssignAll(names: seq<string>): (r: Assigner)
    ensures r.lastUnused == |r.labels|
    ensures Valid(r.labels)
    ensures forall i :: 0 <= i < |names| ==> Has(r.labels, names[i])
  {
    if |names| == 0 then Fresh
    else
      var init := names[..|names| - 1];
      var x := names[|names| - 1];
      var a := AssignAll(init);
      var r := Observe(a, x);
      assert names == init + [x];
      assert forall i :: 0 <= i < |init| ==> Has(r.labels, init[i]) by {
        forall i | 0 <= i < |init|
          ensures Has(r.labels, init[i])
        {
          var j :| 0 <= j < |a.labels| && a.labels[j].0 == init[i];
          assert r.labels[j].0 == init[i];
        }
      }
      r
  }

  /** Only names that were seen enter the registry. */
  lemma {:induction false} AssignedNamesWereSeen(names: seq<string>)
    ensures forall i :: 0 <= i < |AssignAll(names).labels| ==> AssignAll(names).labels[i].0 in names
  {
    if |names| > 0 {
      var init := names[..|names| - 1];
      AssignedNamesWereSeen(init);
      assert names == init + [names[|names| - 1]];
    }
  }

  /** The position of the first occurrence of `x` in `s`. */
  function FirstIndex(s: seq<string>, x: string): (r: nat)
    requires x in s
    ensures r < |s| && s[r] == x
    ensures forall i :: 0 <= i < r ==> s[i] != x
  {
    if s[0] == x then 0 else 1 + FirstIndex(s[1..], x)
  }

  /** Every pair of entries of `labels` is ordered by the first occurrence of its names in `names`. */
  predicate FirstSeenOrder(labels: Registry, names: seq<string>)
  {
    forall i, j :: 0 <= i < j < |labels| ==>
      labels[i].0 in names && labels[j].0 in names && FirstIndex(names, labels[i].0) < FirstIndex(names, labels[j].0)
  }

  /** Seeing one more name does not move the first occurrence of an earlier one. */
  lemma FirstIndexExtend(init: seq<string>, x: string, k: string)
    requires k in init
    ensures k in init + [x] && FirstIndex(init + [x], k) == FirstIndex(init, k)
  {
    var names := init + [x];
    assert names[FirstIndex(init, k)] == k;
  }

  /** Names enter the registry in the order in which each is first seen. */
  lemma {:induction false} AssignFirstSeenOrder(names: seq<string>)
    ensures FirstSeenOrder(AssignAll(names).labels, names)
  {
    if |names| > 0 {
      var init := names[..|names| - 1];
      var x := names[|names| - 1];
      assert names == init + [x];
      var before := AssignAll(init).labels;
      var after := AssignAll(names).labels;
      AssignFirstSeenOrder(init);
      AssignedNamesWereSeen(init);
      forall i | 0 <= i < |before|
        ensures before[i].0 in init && FirstIndex(names, before[i].0) == FirstIndex(init, before[i].0)
      {
        FirstIndexExtend(init, x, before[i].0);
      }
      if Has(before, x) {
        assert after == before;
      } else {
        assert after == before + [(x, |before|)];
        assert x !in init;
        assert FirstIndex(names, x) == |names| - 1;
        forall i, j | 0 <= i < j < |after|
          ensures after[i].0 in names && after[j].0 in names
          ensures FirstIndex(names, after[i].0) < FirstIndex(names, after[j].0)
        {
          assert after[i] == before[i];
          if j < |before| {
            assert after[j] == before[j];
          }
        }
      }
    }
  }

  /** The registry a walk produces: its `.npy` files' genre names, each once, numbered in first-seen order. */
  function BuildRegistry(walk: seq<WalkStep>): Registry
  {
    AssignAll(Folders(FeatureFiles(walk))).labels
  }

  /** The file `walk[j].files[i]` is a `.npy` file in a directory named `genre`. */
  predicate HoldsFeatureOf(walk: seq<WalkStep>, genre: string, j: int, i: int)
  {
    0 <= j < |walk| && 0 <= i < |walk[j].files| && IsFeatureFile(walk[j].files[i]) && Basename(walk[j].root) == genre
  }

  /** Each genre name of the walk's `.npy` files comes from a `.npy` file of a directory with that name. */
  lemma FolderNameFromWalk(walk: seq<WalkStep>, m: int)
    requires 0 <= m < |FeatureFiles(walk)|
    ensures exists j, i :: HoldsFeatureOf(walk, Folders(FeatureFiles(walk))[m], j, i)
  {
    var f := FeatureFiles(walk)[m];
    assert f in FeatureFiles(walk);
    assert f in Files(walk);
    var j, i :| 0 <= j < |walk| && 0 <= i < |walk[j].files| && f == FileRef(walk[j].root, walk[j].files[i]);
    assert HoldsFeatureOf(walk, Folders(FeatureFiles(walk))[m], j, i);
  }

  /** A `.npy` file of the walk contributes the name of its directory. */
  lemma FolderNameInNames(walk: seq<WalkStep>, genre: string, j: int, i: int)
    requires HoldsFeatureOf(walk, genre, j, i)
    ensures genre in Folders(FeatureFiles(walk))
  {
    var f := FileRef(walk[j].root, walk[j].files[i]);
    assert Visits(walk, f);
    assert f in FeatureFiles(walk);
    var m :| 0 <= m < |FeatureFiles(walk)| && FeatureFiles(walk)[m] == f;
    assert Folders(FeatureFiles(walk))[m] == genre;
  }

  /**
   * The registry of a walk is a bijection onto 0..n-1 whose names are exactly
   * the directories holding at least one `.npy` file; a directory without one
   * never enters it.
   */
  lemma RegistryOfWalk(walk: seq<WalkStep>)
    ensures Valid(BuildRegistry(walk))
    ensures forall k :: Has(BuildRegistry(walk), k) <==> exists j, i :: HoldsFeatureOf(walk, k, j, i)
  {
    var names := Folders(FeatureFiles(walk));
    var reg := BuildRegistry(walk);
    AssignedNamesWereSeen(names);
    forall k | Has(reg, k)
      ensures k in names
    {
      var m :| 0 <= m < |reg| && reg[m].0 == k;
    }
    forall k | k in names
      ensures Has(reg, k)
    {
      var m :| 0 <= m < |names| && names[m] == k;
    }
    forall k | k in names
      ensures exists j, i :: HoldsFeatureOf(walk, k, j, i)
    {
      var m :| 0 <= m < |names| && names[m] == k;
      FolderNameFromWalk(walk, m);
    }
    forall k, j, i | HoldsFeatureOf(walk, k, j, i)
      ensures k in names
    {
      FolderNameInNames(walk, k, j, i);
    }
  }
}

=== FILE: librosa_conversion.dfy ===
/**
 * Offline feature extraction of model_creation/librosa_conversion.py: which
 * 30-second windows a clip is cut into, which files they are saved under,
 * and the success count over a directory walk. `librosa.get_duration` is the
 * parameter `duration`; loading a window and computing its decibel-scaled
 * mel spectrogram is the parameter `extract`. Either is None when it raises.
 */
module LibrosaConversion {
  import opened Wrappers
  import opened Paths
  import opened Walks
  import opened AudioWindows
  import opened Filters
  import LabelRegistry

  /** Clips shorter than this are rejected. */
  const MinSeconds: real := 30.0
  /** Clips longer than this are cut into four windows around the middle. */
  const AugmentSeconds: real := 130.0

  const MainSuffix: string := "_mel_spectrogram.txt"
  const Before30Suffix: string := "_30bef_mel_spectrogram.txt"
  const Before60Suffix: string := "_60bef_mel_spectrogram.txt"
  const After30Suffix: string := "_30aft_mel_spectrogram.txt"

  /** One window to extract: its offset in seconds and the suffix of its output file. */
  datatype Cut = Cut(offset: real, suffix: string)

  /** `start_time`: the middle of a long clip, otherwise its beginning. */
  function PrimaryStart(length: real): real
  {
    if length > AugmentSeconds then HalfFloor(length) else 0.0
  }

  /** The windows cut from an accepted clip, in the order they are saved. */
  function Cuts(length: real): seq<Cut>
  {
    var start := PrimaryStart(length);
    if length > AugmentSeconds then
      [Cut(start, MainSuffix), Cut(start - 30.0, Before30Suffix),
       Cut(start - 60.0, Before60Suffix), Cut(start + 30.0, After30Suffix)]
    else
      [Cut(start, MainSuffix)]
  }

  /** `np.save` appends ".npy" to a file name that does not already end with it. */
  function SavedName(name: string): (r: string)
    ensures LabelRegistry.IsFeatureFile(r)
    ensures EndsWith(name, LabelRegistry.FeatureExt) ==> r == name
    ensures !EndsWith(name, LabelRegistry.FeatureExt) ==> r == name + LabelRegistry.FeatureExt
  {
    if EndsWith(name, LabelRegistry.FeatureExt) then name else name + LabelRegistry.FeatureExt
  }

  /** The file a window of `path` is written to: the `splitext` stem, the suffix, and `np.save`'s ".npy". */
  function OutputName(path: string, suffix: string): string
  {
    SavedName(SplitExt(path).0 + suffix)
  }

  /** What converting one clip leaves behind: the returned flag and the files written, in order. */
  datatype Conversion<S> = Conversion(ok: bool, saved: seq<(string, S)>)

  /**
   * Extract and save each window in turn; the first extraction that raises
   * ends the conversion with False, after the files already written.
   */
  function SaveCuts<S>(path: string, cuts: seq<Cut>, extract: (string, real) -> Option<S>): (r: Conversion<S>)
    ensures r.ok <==> forall i :: 0 <= i < |cuts| ==> extract(path, cuts[i].offset).Some?
    ensures |r.saved| <= |cuts|
    ensures r.ok ==> |r.saved| == |cuts|
    ensures !r.ok ==> |r.saved| < |cuts| && extract(path, cuts[|r.saved|].offset).None?
    ensures forall i :: 0 <= i < |r.saved| ==>
              && r.saved[i].0 == OutputName(path, cuts[i].suffix)
              && extract(path, cuts[i].offset).Some?
              && r.saved[i].1 == extract(path, cuts[i].offset).value
  {
    if |cuts| == 0 then Conversion(true, [])
    else match extract(path, cuts[0].offset)
      case None => Conversion(false, [])
      case Some(spec) =>
        var rest := SaveCuts(path, cuts[1..], extract);
        assert forall i :: 1 <= i < |cuts| ==> cuts[1..][i - 1] == cuts[i];
        Conversion(rest.ok, [(OutputName(path, cuts[0].suffix), spec)] + rest.saved)
  }

  /**
   * `process_audio_file(audio_file_path)`: the flag it returns and the
   * spectrogram files it writes. Any exception yields False.
   */
  function ProcessAudioFile<S>(path: string, duration: string -> Option<real>,
                               extract: (string, real) -> Option<S>): (r: Conversion<S>)
    ensures duration(path).None? ==> !r.ok && r.saved == []
    ensures duration(path).Some? && duration(path).value < MinSeconds ==> !r.ok && r.saved == []
    ensures r.ok <==> && duration(path).Some?
                      && duration(path).value >= MinSeconds
                      && forall c :: c in Cuts(duration(path).value) ==> extract(path, c.offset).Some?
    ensures r.ok ==> |r.saved| == (if duration(path).value > AugmentSeconds then 4 else 1)
    ensures forall i :: 0 <= i < |r.saved| ==> LabelRegistry.IsFeatureFile(r.saved[i].0)
  {
    match duration(path)
    case None => Conversion(false, [])
    case Some(length) =>
      if length < MinSeconds then Conversion(false, [])
      else
        var cuts := Cuts(length);
        var r := SaveCuts(path, cuts, extract);
        assert (forall c :: c in cuts ==> extract(path, c.offset).Some?)
               <==> (forall i :: 0 <= i < |cuts| ==> extract(path, cuts[i].offset).Some?);
        r
  }

  /** For a long clip the primary window starts at the middle, rounded down; otherwise at 0. */
  lemma PrimaryWindowStart(length: real)
    ensures Cuts(length)[0].offset == (if length > AugmentSeconds then HalfFloor(length) else 0.0)
    ensures Cuts(length)[0].suffix == MainSuffix
  {
  }

  /** Every window of an accepted clip lies inside the clip. */
  lemma CutsWithinClip(length: real)
    requires length >= MinSeconds
    ensures forall c :: c in Cuts(length) ==> WithinClip(c.offset, length)
  {
  }

  /**
   * The four windows of a long clip start at mid-60, mid-30, mid and mid+30:
   * each ends where the next begins, and no two overlap.
   */
  lemma LongClipWindowsTile(length: real)
    requires length > AugmentSeconds
    ensures |Cuts(length)| == 4
    ensures Cuts(length)[2].offset + WindowSeconds == Cuts(length)[1].offset
    ensures Cuts(length)[1].offset + WindowSeconds == Cuts(length)[0].offset
    ensures Cuts(length)[0].offset + WindowSeconds == Cuts(length)[3].offset
    ensures forall i, j :: 0 <= i < j < 4 ==>
              Cuts(length)[i].offset + WindowSeconds <= Cuts(length)[j].offset
              || Cuts(length)[j].offset + WindowSeconds <= Cuts(length)[i].offset
  {
  }

  /** `stem + a` and `stem + b` differ when `a` and `b` do. */
  lemma DistinctAfterStem(stem: string, a: string, b: string)
    requires a != b
    ensures stem + a + LabelRegistry.FeatureExt != stem + b + LabelRegistry.FeatureExt
  {
    var x := stem + a + LabelRegistry.FeatureExt;
    var y := stem + b + LabelRegistry.FeatureExt;
    if |a| == |b| {
      assert x[|stem|..|stem| + |a|] == a;
      assert y[|stem|..|stem| + |b|] == b;
    } else {
      assert |x| != |y|;
    }
  }

  /** A name ending in ".txt" gets ".npy" appended by `np.save`. */
  lemma TextNameSaved(path: string, suffix: string)
    requires EndsWith(suffix, ".txt")
    ensures OutputName(path, suffix) == SplitExt(path).0 + suffix + LabelRegistry.FeatureExt
  {
    var name := SplitExt(path).0 + suffix;
    assert name[|name| - 4..] == suffix[|suffix| - 4..];
  }

  /** The windows of a clip are saved under pairwise different suffixes, each ending in ".txt". */
  lemma SuffixesDistinct(length: real)
    ensures forall i :: 0 <= i < |Cuts(length)| ==> EndsWith(Cuts(length)[i].suffix, ".txt")
    ensures forall i, j :: 0 <= i < j < |Cuts(length)| ==> Cuts(length)[i].suffix != Cuts(length)[j].suffix
  {
  }

  /**
   * The files of one clip all start with the `splitext` stem of its path,
   * end in ".npy", and are pairwise distinct.
   */
  lemma OutputNamesDistinct(path: string, length: real)
    ensures forall i :: 0 <= i < |Cuts(length)| ==>
              OutputName(path, Cuts(length)[i].suffix) == SplitExt(path).0 + Cuts(length)[i].suffix + LabelRegistry.FeatureExt
    ensures forall i, j :: 0 <= i < j < |Cuts(length)| ==>
              OutputName(path, Cuts(length)[i].suffix) != OutputName(path, Cuts(length)[j].suffix)
  {
    var stem := SplitExt(path).0;
    var cuts := Cuts(length);
    SuffixesDistinct(length);
    forall i | 0 <= i < |cuts|
      ensures OutputName(path, cuts[i].suffix) == stem + cuts[i].suffix + LabelRegistry.FeatureExt
    {
      TextNameSaved(path, cuts[i].suffix);
    }
    forall i, j | 0 <= i < j < |cuts|
      ensures OutputName(path, cuts[i].suffix) != OutputName(path, cuts[j].suffix)
    {
      DistinctAfterStem(stem, cuts[i].suffix, cuts[j].suffix);
    }
  }

  /**
   * What `process_audio_file` writes: window i of the clip, in order, under
   * the stem of the path plus that window's suffix and ".npy", holding that
   * window's spectrogram; no two files share a name.
   */
  lemma ProcessAudioFileWrites<S>(path: string, duration: string -> Option<real>,
                                  extract: (string, real) -> Option<S>)
    ensures var r := ProcessAudioFile(path, duration, extract);
            r.saved != [] ==>
              && duration(path).Some?
              && var cuts := Cuts(duration(path).value);
              && |r.saved| <= |cuts|
              && (forall i :: 0 <= i < |r.saved| ==>
                    r.saved[i] == (SplitExt(path).0 + cuts[i].suffix + LabelRegistry.FeatureExt,
                                   extract(path, cuts[i].offset).value))
              && (forall i, j :: 0 <= i < j < |r.saved| ==> r.saved[i].0 != r.saved[j].0)
  {
    if ProcessAudioFile(path, duration, extract).saved != [] {
      OutputNamesDistinct(path, duration(path).value);
    }
  }

  /** The case-insensitive extension filter of `process_audio_database`. */
  predicate IsAudioFile(name: string)
  {
    var lower := Lower(name);
    EndsWith(lower, ".wav") || EndsWith(lower, ".mp3") || EndsWith(lower, ".au")
  }

  /** The file is one `process_audio_database` converts. */
  predicate IsAudioRef(f: FileRef)
  {
    IsAudioFile(f.name)
  }

  /** The audio files among `files`, in order. */
  function AudioOnly(files: seq<FileRef>): (r: seq<FileRef>)
    ensures |r| <= |files|
    ensures forall f :: f in r <==> f in files && IsAudioFile(f.name)
  {
    FilterMembers(files, IsAudioRef);
    Filter(files, IsAudioRef)
  }

  /** Converting the clip `f` returns True. */
  function Converts<S>(duration: string -> Option<real>, extract: (string, real) -> Option<S>): FileRef -> bool
  {
    (f: FileRef) => ProcessAudioFile(f.Path(), duration, extract).ok
  }

  /** The audio files of a list are those of all but its last entry, then that entry if it is audio. */
  lemma AudioOnlyStep(files: seq<FileRef>)
    requires |files| > 0
    ensures AudioOnly(files) == AudioOnly(files[..|files| - 1]) + (if IsAudioFile(files[|files| - 1].name) then [files[|files| - 1]] else [])
  {
  }

  /** What `process_audio_database` leaves behind: its final count and every file written, in order. */
  datatype DatabaseRun<S> = DatabaseRun(count: nat, saved: seq<(string, S)>)

  /** The loop of `process_audio_database` over the files of a walk. */
  function ConvertAll<S>(files: seq<FileRef>, duration: string -> Option<real>,
                         extract: (string, real) -> Option<S>): (r: DatabaseRun<S>)
    ensures r.count == |Filter(AudioOnly(files), Converts(duration, extract))|
    ensures forall i :: 0 <= i < |r.saved| ==> LabelRegistry.IsFeatureFile(r.saved[i].0)
  {
    if |files| == 0 then DatabaseRun(0, [])
    else
      var init := files[..|files| - 1];
      var f := files[|files| - 1];
      var before := ConvertAll(init, duration, extract);
      var extra := if IsAudioFile(f.name) then [f] else [];
      var keep := Converts(duration, extract);
      AudioOnlyStep(files);
      FilterAppend(AudioOnly(init), extra, keep);
      if IsAudioFile(f.name) then
        var c := ProcessAudioFile(f.Path(), duration, extract);
        FilterOne(f, keep);
        assert keep(f) == c.ok;
        DatabaseRun(if c.ok then before.count + 1 else before.count, before.saved + c.saved)
      else
        before
  }

  /**
   * `process_audio_database(audio_directory)` over the walk of the directory:
   * the count is the number of audio files whose conversion returned True.
   */
  function ProcessAudioDatabase<S>(walk: seq<WalkStep>, duration: string -> Option<real>,
                                   extract: (string, real) -> Option<S>): (r: DatabaseRun<S>)
    ensures r.count <= |AudioOnly(Files(walk))|
    ensures r.count == |AudioOnly(Files(walk))| <==>
              forall i :: 0 <= i < |AudioOnly(Files(walk))| ==> ProcessAudioFile(AudioOnly(Files(walk))[i].Path(), duration, extract).ok
    ensures r.count == |Filter(AudioOnly(Files(walk)), Converts(duration, extract))|
  {
    FilterAll(AudioOnly(Files(walk)), Converts(duration, extract));
    ConvertAll(Files(walk), duration, extract)
  }
}

=== FILE: paths.dfy ===
/**
 * The string and path helpers of Python the pipeline relies on:
 * `str.endswith`, `str.rfind`, `str.lower`, and the POSIX flavour of
 * `os.path.basename`, `os.path.join` and `os.path.splitext`.
 */
module Paths {

  const Sep: char := '/'
  const ExtSep: char := '.'

  /** `s.endswith(suffix)` */
  predicate EndsWith(s: string, suffix: string)
  {
    |suffix| <= |s| && s[|s| - |suffix|..] == suffix
  }

  /** `s.rfind(c)`: the index of the last `c` in `s`, or -1 when there is none. */
  function RFind(s: string, c: char): (r: int)
    ensures -1 <= r < |s|
    ensures r >= 0 ==> s[r] == c
    ensures forall k :: r < k < |s| ==> s[k] != c
  {
    if |s| == 0 then -1
    else if s[|s| - 1] == c then |s| - 1
    else RFind(s[..|s| - 1], c)
  }

  /** `os.path.basename(p)`: everything after the last separator. */
  function Basename(p: string): (r: string)
    ensures Sep !in r
    ensures Sep !in p ==> r == p
  {
    p[RFind(p, Sep) + 1..]
  }

  /** The last component of `p`: a separator-free suffix that is all of `p` or preceded by a separator. */
  predicate IsLastComponent(p: string, r: string)
  {
    EndsWith(p, r) && Sep !in r && (|r| == |p| || p[|p| - |r| - 1] == Sep)
  }

  /** The basename is exactly the last component, and nothing else is. */
  lemma BasenameIsLastComponent(p: string, r: string)
    ensures r == Basename(p) <==> IsLastComponent(p, r)
  {
    if r == Basename(p) {
      BasenameIsOne(p);
    }
    if IsLastComponent(p, r) {
      OnlyOneLastComponent(p, r);
    }
  }

  /** What `Basename` returns is a last component. */
  lemma BasenameIsOne(p: string)
    ensures IsLastComponent(p, Basename(p))
  {
    var k := RFind(p, Sep);
    assert p[|p| - |p[k + 1..]|..] == p[k + 1..];
  }

  /** A last component starts right after the last separator, so it is the basename. */
  lemma OnlyOneLastComponent(p: string, r: string)
    requires IsLastComponent(p, r)
    ensures r == Basename(p)
  {
    var k := RFind(p, Sep);
    var start := |p| - |r|;
    assert p[start..] == r;
    if |r| < |p| {
      assert p[start - 1] == Sep;
    }
    assert k == start - 1;
  }

  /** `os.path.join(a, b)` for two components. */
  function Join(a: string, b: string): string
  {
    if |b| > 0 && b[0] == Sep then b
    else if |a| == 0 || a[|a| - 1] == Sep then a + b
    else a + [Sep] + b
  }

  /** No character of `p` strictly between the indices `lo` and `hi` differs from '.' */
  predicate OnlyDotsBetween(p: string, lo: int, hi: int)
    requires -1 <= lo && hi <= |p|
  {
    forall k :: lo < k < hi ==> p[k] == ExtSep
  }

  /**
   * `os.path.splitext(p)`: the extension is the part from the last '.' of the
   * last path component, unless that component holds only dots before it
   * (a leading dot, as in ".bashrc", does not start an extension).
   */
  function SplitExt(p: string): (r: (string, string))
    ensures r.0 + r.1 == p
    ensures r.1 == [] || (r.1[0] == ExtSep && Sep !in r.1 && ExtSep !in r.1[1..])
    ensures r.1 != [] ==> |r.0| > 0 && r.0[|r.0| - 1] != Sep
  {
    var sepIndex := RFind(p, Sep);
    var dotIndex := RFind(p, ExtSep);
    if dotIndex > sepIndex && !OnlyDotsBetween(p, sepIndex, dotIndex) then
      (p[..dotIndex], p[dotIndex..])
    else
      (p, [])
  }

  /**
   * An extension is split off exactly when the last component has a '.'
   * after some character other than '.', so leading dots never start one.
   */
  lemma SplitExtFindsExtension(p: string)
    ensures SplitExt(p).1 != [] <==>
              exists i, j :: RFind(p, Sep) < i < j < |p| && p[i] != ExtSep && p[j] == ExtSep
  {
  }

  /** ASCII case folding of one character. */
  function LowerChar(c: char): (r: char)
    ensures 'A' <= c <= 'Z' ==> 'a' <= r <= 'z'
    ensures !('A' <= c <= 'Z') ==> r == c
  {
    if 'A' <= c <= 'Z' then (c as int - 'A' as int + 'a' as int) as char else c
  }

  /** `s.lower()` restricted to ASCII letters. */
  function Lower(s: string): (r: string)
    ensures |r| == |s|
    ensures forall i :: 0 <= i < |s| ==> r[i] == LowerChar(s[i])
  {
    seq(|s|, i requires 0 <= i < |s| => LowerChar(s[i]))
  }
}

=== FILE: permutations.dfy ===
/**
 * `np.random.permutation(n)` and NumPy fancy indexing `a[perm]`. The
 * randomness is not modelled: the permutation is an input, and all that is
 * assumed of it is that it rearranges 0..n-1.
 */
module Permutations {

  /** `np.arange(n)`: the indices 0..n-1 in order. */
  function Iota(n: nat): (r: seq<nat>)
    ensures |r| == n
    ensures forall i :: 0 <= i < n ==> r[i] == i
  {
    if n == 0 then [] else Iota(n - 1) + [n - 1]
  }

  /** `perm` holds each of 0..n-1 exactly once. */
  predicate IsPermutation(perm: seq<nat>, n: nat)
  {
    |perm| == n && multiset(perm) == multiset(Iota(n))
  }

  /** `s[perm]`: the element at position i is `s[perm[i]]`. */
  function Permute<T>(s: seq<T>, perm: seq<nat>): (r: seq<T>)
    requires forall i :: 0 <= i < |perm| ==> perm[i] < |s|
    ensures |r| == |perm|
    ensures forall i :: 0 <= i < |perm| ==> r[i] == s[perm[i]]
  {
    seq(|perm|, i requires 0 <= i < |perm| => s[perm[i]])
  }

  /** The rows of two equally long columns, side by side. */
  function Zip<A, B>(a: seq<A>, b: seq<B>): (r: seq<(A, B)>)
    requires |a| == |b|
    ensures |r| == |a|
    ensures forall i :: 0 <= i < |a| ==> r[i] == (a[i], b[i])
  {
    seq(|a|, i requires 0 <= i < |a| => (a[i], b[i]))
  }

  /** Every entry of a permutation of 0..n-1 is an index below n. */
  lemma PermutationInRange(perm: seq<nat>, n: nat)
    requires IsPermutation(perm, n)
    ensures forall i :: 0 <= i < |perm| ==> perm[i] < n
  {
    forall i | 0 <= i < |perm|
      ensures perm[i] < n
    {
      assert perm[i] in multiset(perm);
      assert perm[i] in Iota(n);
    }
  }

  /** Removing the position of the largest index leaves a permutation of 0..n-2. */
  lemma DropLargest(perm: seq<nat>, n: nat) returns (k: nat, rest: seq<nat>)
    requires n > 0 && IsPermutation(perm, n)
    ensures k < |perm| && perm[k] == n - 1
    ensures rest == perm[..k] + perm[k + 1..]
    ensures IsPermutation(rest, n - 1)
  {
    assert Iota(n) == Iota(n - 1) + [n - 1];
    assert n - 1 in multiset(perm);
    k :| 0 <= k < |perm| && perm[k] == n - 1;
    rest := perm[..k] + perm[k + 1..];
    assert perm == perm[..k] + [perm[k]] + perm[k + 1..];
    assert multiset(perm) == multiset(rest) + multiset{(n - 1) as nat};
    assert multiset(Iota(n)) == multiset(Iota(n - 1)) + multiset{(n - 1) as nat};
    MultisetCancel(multiset(perm), multiset(rest), multiset(Iota(n - 1)), n - 1);
  }

  lemma MultisetCancel(a: multiset<nat>, b: multiset<nat>, c: multiset<nat>, x: nat)
    requires a == b + multiset{x} && a == c + multiset{x}
    ensures b == c
  {
    forall y
      ensures b[y] == c[y]
    {
      assert a[y] == b[y] + multiset{x}[y];
      assert a[y] == c[y] + multiset{x}[y];
    }
  }

  /** Where the largest index sits, the permuted sequence holds the last element. */
  lemma PermuteAroundLargest<T>(s: seq<T>, perm: seq<nat>, k: nat, rest: seq<nat>)
    requires |s| > 0 && k < |perm| && perm[k] == |s| - 1
    requires rest == perm[..k] + perm[k + 1..]
    requires forall i :: 0 <= i < |perm| ==> perm[i] < |s|
    requires forall i :: 0 <= i < |rest| ==> rest[i] < |s| - 1
    ensures Permute(s, perm) == Permute(s[..|s| - 1], rest)[..k] + [s[|s| - 1]] + Permute(s[..|s| - 1], rest)[k..]
  {
  }

  lemma MultisetInsert<T>(q: seq<T>, k: nat, x: T)
    requires k <= |q|
    ensures multiset(q[..k] + [x] + q[k..]) == multiset(q) + multiset{x}
  {
    assert q == q[..k] + q[k..];
  }

  /** Rearranging by a permutation keeps every element, as often as before. */
  lemma {:induction false} PermuteKeepsMultiset<T>(s: seq<T>, perm: seq<nat>)
    requires IsPermutation(perm, |s|)
    ensures forall i :: 0 <= i < |perm| ==> perm[i] < |s|
    ensures multiset(Permute(s, perm)) == multiset(s)
  {
    PermutationInRange(perm, |s|);
    if |s| > 0 {
      var n := |s|;
      var k, rest := DropLargest(perm, n);
      var init := s[..n - 1];
      PermuteKeepsMultiset(init, rest);
      var p := Permute(s, perm);
      var q := Permute(init, rest);
      PermuteAroundLargest(s, perm, k, rest);
      MultisetInsert(q, k, s[n - 1]);
      calc {
        multiset(p);
        multiset(q[..k] + [s[n - 1]] + q[k..]);
        multiset(q) + multiset{s[n - 1]};
        multiset(init) + multiset{s[n - 1]};
        { assert s == init + [s[n - 1]]; }
        multiset(s);
      }
    }
  }

  /** Shuffling two columns with one permutation shuffles their rows. */
  lemma ZipPermute<A, B>(a: seq<A>, b: seq<B>, perm: seq<nat>)
    requires |a| == |b|
    requires forall i :: 0 <= i < |perm| ==> perm[i] < |a|
    ensures Zip(Permute(a, perm), Permute(b, perm)) == Permute(Zip(a, b), perm)
  {
  }
}

=== FILE: ranking.dfy ===
/**
 * Ordering (name, score) pairs by score, as `sorted(..., key=score,
 * reverse=True)` does for predictions. Python's sort is stable, also with
 * `reverse=True`: pairs with equal scores keep their original relative order.
 * The recommender's `sort_values` may order ties either way; the stable order
 * used here is one of the orders it may produce.
 */
module Ranking {

  /** A name with its score: a genre with its probability, a title with its distance. */
  type Scored = (string, real)

  /** `a` may stand before `b`: not lower (descending) or not higher (ascending). */
  predicate InOrder(a: Scored, b: Scored, descending: bool)
  {
    if descending then a.1 >= b.1 else a.1 <= b.1
  }

  predicate Sorted(s: seq<Scored>, descending: bool)
  {
    forall i, j :: 0 <= i < j < |s| ==> InOrder(s[i], s[j], descending)
  }

  /** The pairs of `s` whose score is exactly `v`, in their order in `s`. */
  function Ties(s: seq<Scored>, v: real): (r: seq<Scored>)
    ensures |r| <= |s|
  {
    if |s| == 0 then []
    else Ties(s[..|s| - 1], v) + (if s[|s| - 1].1 == v then [s[|s| - 1]] else [])
  }

  /** Place `x` after every pair of the sorted `s` that may stand before it. */
  function Insert(x: Scored, s: seq<Scored>, descending: bool): (r: seq<Scored>)
    requires Sorted(s, descending)
    ensures Sorted(r, descending)
    ensures multiset(r) == multiset(s) + multiset{x}
  {
    if |s| == 0 then [x]
    else if InOrder(s[0], x, descending) then
      SortedTail(s, descending);
      var tail := Insert(x, s[1..], descending);
      HeadBeforeAll(s, x, tail, descending);
      assert s == [s[0]] + s[1..];
      [s[0]] + tail
    else
      [x] + s
  }

  /**
   * The head of a sorted sequence may stand before `x` and before every
   * element of its tail, so it may stand before any arrangement of them.
   */
  lemma HeadBeforeAll(s: seq<Scored>, x: Scored, tail: seq<Scored>, descending: bool)
    requires Sorted(s, descending) && |s| > 0 && InOrder(s[0], x, descending)
    requires Sorted(tail, descending)
    requires multiset(tail) == multiset(s[1..]) + multiset{x}
    ensures Sorted([s[0]] + tail, descending)
  {
    forall j | 0 <= j < |tail|
      ensures InOrder(s[0], tail[j], descending)
    {
      assert tail[j] in multiset(tail);
      if tail[j] != x {
        assert tail[j] in multiset(s[1..]);
        var m :| 0 <= m < |s[1..]| && s[1..][m] == tail[j];
        assert s[m + 1] == tail[j];
      }
    }
    var r := [s[0]] + tail;
    forall i, j | 0 <= i < j < |r|
      ensures InOrder(r[i], r[j], descending)
    {
      if i == 0 {
        assert r[j] == tail[j - 1];
      } else {
        assert r[i] == tail[i - 1] && r[j] == tail[j - 1];
      }
    }
  }

  /** Stable insertion sort, the pairs taken in their original order. */
  function Sort(s: seq<Scored>, descending: bool): (r: seq<Scored>)
    ensures Sorted(r, descending)
    ensures multiset(r) == multiset(s)
  {
    if |s| == 0 then []
    else
      assert s == s[..|s| - 1] + [s[|s| - 1]];
      Insert(s[|s| - 1], Sort(s[..|s| - 1], descending), descending)
  }

  lemma {:induction false} TiesAppend(a: seq<Scored>, b: seq<Scored>, v: real)
    ensures Ties(a + b, v) == Ties(a, v) + Ties(b, v)
    decreases |b|
  {
    if |b| > 0 {
      assert (a + b)[..|a + b| - 1] == a + b[..|b| - 1];
      TiesAppend(a, b[..|b| - 1], v);
    } else {
      assert a + b == a;
    }
  }

  /** No pair of `s` has the score `v`. */
  lemma {:induction false} NoTies(s: seq<Scored>, v: real)
    requires forall i :: 0 <= i < |s| ==> s[i].1 != v
    ensures Ties(s, v) == []
  {
    if |s| > 0 {
      NoTies(s[..|s| - 1], v);
    }
  }

  /** Inserting `x` puts it after every earlier pair with the same score. */
  lemma {:induction false} InsertTies(x: Scored, s: seq<Scored>, descending: bool, v: real)
    requires Sorted(s, descending)
    ensures Ties(Insert(x, s, descending), v) == Ties(s, v) + (if x.1 == v then [x] else [])
  {
    if |s| == 0 {
      assert Ties([x], v) == Ties([], v) + (if x.1 == v then [x] else []);
    } else if InOrder(s[0], x, descending) {
      SortedTail(s, descending);
      InsertTies(x, s[1..], descending, v);
      InsertTiesBehind(x, s, descending, v);
    } else {
      InsertTiesAhead(x, s, descending, v);
    }
  }

  lemma SortedTail(s: seq<Scored>, descending: bool)
    requires Sorted(s, descending) && |s| > 0
    ensures Sorted(s[1..], descending)
  {
  }

  /** Behind the head: `x` goes into the tail. */
  lemma InsertBehind(x: Scored, s: seq<Scored>, descending: bool)
    requires Sorted(s, descending) && |s| > 0 && InOrder(s[0], x, descending)
    ensures Sorted(s[1..], descending)
    ensures Insert(x, s, descending) == [s[0]] + Insert(x, s[1..], descending)
  {
  }

  /** Putting the same pair in front of two sequences keeps a relation between their ties. */
  lemma TiesCons(h: Scored, t: seq<Scored>, rest: seq<Scored>, tx: seq<Scored>, v: real)
    requires Ties(t, v) == Ties(rest, v) + tx
    ensures Ties([h] + t, v) == Ties([h] + rest, v) + tx
  {
    TiesAppend([h], t, v);
    TiesAppend([h], rest, v);
  }

  lemma InsertTiesBehind(x: Scored, s: seq<Scored>, descending: bool, v: real)
    requires Sorted(s, descending) && |s| > 0 && InOrder(s[0], x, descending)
    requires Ties(Insert(x, s[1..], descending), v) == Ties(s[1..], v) + (if x.1 == v then [x] else [])
    ensures Ties(Insert(x, s, descending), v) == Ties(s, v) + (if x.1 == v then [x] else [])
  {
    InsertBehind(x, s, descending);
    TiesCons(s[0], Insert(x, s[1..], descending), s[1..], if x.1 == v then [x] else [], v);
    assert [s[0]] + s[1..] == s;
  }

  lemma InsertTiesAhead(x: Scored, s: seq<Scored>, descending: bool, v: real)
    requires Sorted(s, descending) && |s| > 0 && !InOrder(s[0], x, descending)
    ensures Ties(Insert(x, s, descending), v) == Ties(s, v) + (if x.1 == v then [x] else [])
  {
    assert Insert(x, s, descending) == [x] + s;
    TiesAppend([x], s, v);
    assert Ties([x], v) == Ties([], v) + (if x.1 == v then [x] else []);
    if x.1 == v {
      assert forall i :: 0 <= i < |s| ==> s[i].1 != v by {
        forall i | 0 <= i < |s|
          ensures s[i].1 != v
        {
          assert InOrder(s[0], s[i], descending);
        }
      }
      NoTies(s, v);
    }
  }

  /** Sorting is stable: for every score, the pairs holding it keep their original order. */
  lemma {:induction false} SortIsStable(s: seq<Scored>, descending: bool, v: real)
    ensures Ties(Sort(s, descending), v) == Ties(s, v)
  {
    if |s| > 0 {
      SortIsStable(s[..|s| - 1], descending, v);
      InsertTies(s[|s| - 1], Sort(s[..|s| - 1], descending), descending, v);
    }
  }
}

=== FILE: walks.dfy ===
/**
 * A directory walk as `os.walk` yields it, taken as an input sequence rather
 * than read from a file system: the traversal order is whatever the walk says.
 */
module Walks {
  import opened Paths

  /** One (root, files) triple of `os.walk`; the sub-directory list is never used. */
  datatype WalkStep = WalkStep(root: string, files: seq<string>)

  /** A file as the walk reaches it: the directory it sits in and its name. */
  datatype FileRef = FileRef(root: string, name: string) {

    /** `os.path.join(root, name)` */
    function Path(): string
    {
      Join(root, name)
    }

    /** `os.path.basename(root)`: the name of the directory holding the file */
    function Folder(): string
    {
      Basename(root)
    }
  }

  /** The files of one step, in listing order. */
  function StepFiles(step: WalkStep): (r: seq<FileRef>)
    ensures |r| == |step.files|
    ensures forall i :: 0 <= i < |r| ==> r[i] == FileRef(step.root, step.files[i])
  {
    seq(|step.files|, i requires 0 <= i < |step.files| => FileRef(step.root, step.files[i]))
  }

  /** The file `walk[j].files[i]` is reached by the walk. */
  predicate Visits(walk: seq<WalkStep>, f: FileRef)
  {
    exists j, i :: 0 <= j < |walk| && 0 <= i < |walk[j].files| && f == FileRef(walk[j].root, walk[j].files[i])
  }

  /** Every file of a walk, in the order two nested `for` loops over it visit them. */
  function Files(walk: seq<WalkStep>): (r: seq<FileRef>)
    ensures forall f :: f in r <==> Visits(walk, f)
  {
    if |walk| == 0 then []
    else
      var r := Files(walk[..|walk| - 1]) + StepFiles(walk[|walk| - 1]);
      assert forall f :: Visits(walk, f) <==> Visits(walk[..|walk| - 1], f) || f in StepFiles(walk[|walk| - 1]) by {
        forall f | Visits(walk, f)
          ensures Visits(walk[..|walk| - 1], f) || f in StepFiles(walk[|walk| - 1])
        {
          var j, i :| 0 <= j < |walk| && 0 <= i < |walk[j].files| && f == FileRef(walk[j].root, walk[j].files[i]);
          if j == |walk| - 1 {
            assert StepFiles(walk[j])[i] == f;
          } else {
            assert walk[..|walk| - 1][j] == walk[j];
          }
        }
        forall f | f in StepFiles(walk[|walk| - 1])
          ensures Visits(walk, f)
        {
          var i :| 0 <= i < |walk[|walk| - 1].files| && StepFiles(walk[|walk| - 1])[i] == f;
        }
        forall f | Visits(walk[..|walk| - 1], f)
          ensures Visits(walk, f)
        {
          var j, i :| 0 <= j < |walk| - 1 && 0 <= i < |walk[..|walk| - 1][j].files|
            && f == FileRef(walk[..|walk| - 1][j].root, walk[..|walk| - 1][j].files[i]);
          assert walk[..|walk| - 1][j] == walk[j];
        }
      }
      r
  }
}

=== FILE: wrappers.dfy ===
/** Failure-carrying values shared by every module of the model. */
module Wrappers {

  /** A value that may be absent: a missing file, an oracle that raised. */
  datatype Option<+T> = None | Some(value: T)

  /** The outcome of an operation that either produces a value or raises an error. */
  datatype Result<+T, +E> = Ok(value: T) | Err(error: E)
}
